=== FILE: README.md ===
# Transient inference core, modelled in Dafny

This project models the deterministic core of a Bayesian fitting package for
astrophysical transients (gamma-ray-burst afterglows, kilonovae, prompt emission),
and of its companion GRB analysis scripts:

- **Ejecta relations** (`EjectaRelations`). These are the closed-form fits from the
  parameters of a binary merger to kilonova ejecta mass, velocity and opening angles:
  - the one-component BNS relations of Dietrich and Ujevic (2017), with and without
    projection;
  - the NSBH relation of Kawaguchi et al. (2016), with the Bardeen–Press–Teukolsky ISCO
    radius;
  - the compactness and baryonic-mass helpers.

  The formulas are over `real`. Logarithm, powers, square root, `10**x` and π are fields
  of a `RealOps` record (`RealFunctions`). Properties that need facts about them hold
  whenever `Lawful(ops)` does; `Witness` shows those facts are satisfiable. A division by
  zero has no real value, so it is reported as `DivisionByZero`.
- **Fit orchestration** (`Sampler`):
  - `fit_model` and its three fitters: model lookup, the initial prior, the photon-index
    `alpha_1` prior, run label, output directory, data and likelihood choice, and the
    metadata dictionary;
  - the keyword arguments finally handed to the sampler.

  The sampler is not run. A fit's outcome is the exact call it would receive (`SamplerCall`),
  or Python's `TypeError` when a keyword would be passed twice.
- **Afterglow models** (`AfterglowModels`). These are the solver configurations (`Z`)
  built by the afterglow models. For `tophat_integrated` they also cover:
  - the three-point frequency grid;
  - meshgrid flattening with its index arithmetic;
  - reshaping and prefactor scaling;
  - per-time Simpson integration.

  The jet solver, the cosmology and Simpson's rule are function parameters (`Backend`).
- **Result lookup** (`Analysis`):
  - the data path;
  - the directory and file name from which a fit's result is read back;
  - the log Bayes factor of two models.

  The file system is a value (`Store`).

Supporting modules:
- `Wrappers`: `Option` and `Result`.
- `PyValues`: keyword-argument values, Python's `== True`, `str.lstrip` and ASCII `str.lower`.
- `PyDict`: Python's insertion-ordered `dict` with `update`.

## Model

| member | source | states |
|---|---|---|
| EjectaRelations.CompactnessFromLambda | redback/ejecta_relations.py:238-244 | the fit is strictly positive for every ln λ (its discriminant is negative), so the later divisions by compactness are safe; λ with ln λ = 0 gives exactly 0.371 |
| EjectaRelations.CompactnessFitPositive | redback/ejecta_relations.py:243 | 0.371 − 0.0391·L + 0.001056·L² > 0 for every real L |
| EjectaRelations.Compactness | redback/ejecta_relations.py:247-258 | G·M·M☉/(c²·R) is defined exactly when c ≠ 0 and R ≠ 0, and is positive for positive constants, mass and radius |
| EjectaRelations.CompactnessDecreasesWithRadius | redback/ejecta_relations.py:247-258 | for positive G, M☉ and mass and c ≠ 0, a larger radius gives a strictly smaller compactness |
| EjectaRelations.BaryonicMassEosInsensitive | redback/ejecta_relations.py:261-268 | defined exactly when R₁.₄ ≠ 0; for positive R₁.₄ the baryonic mass is at least the gravitational mass |
| EjectaRelations.BaryonicMass | redback/ejecta_relations.py:271-278 | for positive compactness the baryonic mass is at least a non-negative gravitational mass, and is zero exactly when the mass is zero |
| EjectaRelations.BaryonicCorrectionPositive | redback/ejecta_relations.py:277 | for C > 0 the correction 0.8857853174243745·C^1.2082383572002926 is positive, so the baryonic mass strictly exceeds a positive gravitational mass, is at least a non-negative one, and is zero exactly when the mass is |
| EjectaRelations.VRho | redback/ejecta_relations.py:281-297 | for equal masses the in-plane velocity is positive, whatever the two tidal deformabilities |
| EjectaRelations.VZ | redback/ejecta_relations.py:300-316 | for equal masses the out-of-plane velocity is positive, whatever the two tidal deformabilities |
| EjectaRelations.VelocityComponentsSymmetric | redback/ejecta_relations.py:281-316 | v_ρ and v_z are unchanged when (mass_1, λ₁) and (mass_2, λ₂) are exchanged |
| EjectaRelations.PolarOpeningAngle | redback/ejecta_relations.py:68-77 | the polar opening angle is positive when both velocity components are |
| EjectaRelations.QejPositive | redback/ejecta_relations.py:74-76 | with positive v_ρ and v_z, both the numerator and the cube-root denominator of θ_ej are positive |
| EjectaRelations.EqualMassOpeningAngle | redback/ejecta_relations.py:5-77 | an equal-mass binary with non-zero mass always has a defined no-projection relation, with a positive polar opening angle |
| EjectaRelations.AzimuthalOpeningAngle | redback/ejecta_relations.py:79-86 | φ_ej = 2π·θ_ej |
| EjectaRelations.BnsRecord | redback/ejecta_relations.py:16-28 | the constructor's attributes: the given compactnesses, velocities and fits, with the polar angle from v_ρ, v_z and φ_ej = 2π·θ_ej |
| EjectaRelations.BnsNoProjection | redback/ejecta_relations.py:5-86 | defined exactly when both masses and the θ_ej denominator are non-zero; both compactnesses are positive; φ_ej = 2π·θ_ej; the ejecta mass 10^log10_mej is positive |
| EjectaRelations.NoProjectionVelocity | redback/ejecta_relations.py:31-44 | for equal masses and positive compactnesses the ejecta velocity is positive |
| EjectaRelations.NoProjectionLog10Mass | redback/ejecta_relations.py:47-62 | for equal masses both mass-ratio powers are one, so log10 m_ej = −0.0719·m·((1 − 2c1)/c1 + (1 − 2c2)/c2) + 0.4232·m − 2.42 |
| EjectaRelations.NoProjectionMass | redback/ejecta_relations.py:56-65 | the ejecta mass 10^log10_mej is positive |
| EjectaRelations.NoProjectionSymmetric | redback/ejecta_relations.py:37-65 | exchanging the stars leaves the velocity, log10 mass, ejecta mass and both angles unchanged, swaps c1 and c2, and preserves definedness |
| EjectaRelations.ProjectionVelocity | redback/ejecta_relations.py:120 | √(v_ρ² + v_z²) ≥ 0 |
| EjectaRelations.ProjectionMass | redback/ejecta_relations.py:130-147 | the floored fit divided by 1000 is never negative |
| EjectaRelations.BnsProjection | redback/ejecta_relations.py:88-168 | defined exactly when the masses, the θ_ej denominator and both baryonic masses are non-zero; ejecta mass ≥ 0; velocity ≥ 0; φ_ej = 2π·θ_ej |
| EjectaRelations.BnsRelationsShareAngles | redback/ejecta_relations.py:74-86 | the two BNS relations fail on the same inputs and agree on v_ρ, v_z, θ_ej and φ_ej |
| EjectaRelations.ProjectionSymmetric | redback/ejecta_relations.py:113-168 | exchanging the stars leaves the projected velocity, mass and both angles unchanged |
| EjectaRelations.IscoSchwarzschild | redback/ejecta_relations.py:198-199 | at χ = 0: z1 = 3 and z2 = 3 |
| EjectaRelations.IscoRadius | redback/ejecta_relations.py:192-202 | a non-spinning black hole has its ISCO at six gravitational radii |
| EjectaRelations.IscoProgradeRetrograde | redback/ejecta_relations.py:198-202 | z1 and z2 are even in χ; the prograde and retrograde radii are symmetric about 3 + z2 |
| EjectaRelations.NsbhVelocity | redback/ejecta_relations.py:205-212 | the velocity is 0.19066667068621043 plus 0.015333330951369120 times the mass ratio, hence at least 0.1907 for a non-negative ratio |
| EjectaRelations.NsbhMass | redback/ejecta_relations.py:221-235 | the ejecta mass is never negative when the baryonic mass is not |
| EjectaRelations.Nsbh | redback/ejecta_relations.py:170-235 | defined exactly when mass_ns ≠ 0; mass_ratio·mass_ns = mass_bh; the velocity is linear in the mass ratio with the source's coefficients; ejecta mass ≥ 0 for positive mass_ns; r_isco = 6 for χ = 0 |
| PyValues.LStrip | redback/sampler.py:106 | the result is a suffix of the input, does not begin with the stripped character, and only that character was removed |
| PyValues.LStripIdempotent | redback/sampler.py:106 | stripping twice equals stripping once |
| PyValues.LStripUnderscoreClean | redback/sampler.py:106 | a key with its leading underscores stripped never starts with "_" |
| PyValues.LowerNormalises | redback/sampler.py:105 | the lowered class name has no upper-case ASCII letter, and lowering is idempotent |
| PyDict.Get | redback/sampler.py:105-108 | looking up a key finds nothing exactly when the key is absent, and otherwise returns a value stored under it |
| PyDict.Put | redback/sampler.py:108 | assignment keeps the key order when the key exists and appends the key otherwise |
| PyDict.PutGet | redback/sampler.py:108 | after `d[k] = v`, `d[k]` is v and every other key reads as before |
| PyDict.Update | redback/sampler.py:107 | `update` keeps the old keys as a prefix, and the keys afterwards are the old keys plus the argument's keys |
| PyDict.UpdateGet | redback/sampler.py:107 | after `update`, a key holds the last value the argument gave it, and any other key is untouched |
| PyDict.UpdateUnique | redback/sampler.py:107 | `update` never creates a duplicate key |
| PyDict.AppendNewMembers | redback/sampler.py:107 | appending the unseen keys lists a key exactly when it was listed before or is added |
| PyDict.AppendNewOnce | redback/sampler.py:106-107 | dropping repeated keys before appending them changes nothing, so updating with a comprehension orders keys as updating with its pairs |
| PyDict.UpdateKeys | redback/sampler.py:107 | after `update` the keys are the old keys followed by each new key at its first occurrence |
| PyDict.FromPairs | redback/sampler.py:106 | a dictionary comprehension has unique keys, exactly those of its pairs, in order of first occurrence |
| Sampler.DefaultRequest | redback/sampler.py:19-21 | the default arguments of `fit_model`: no prior, no extra keyword arguments |
| Sampler.ResolveModel | redback/sampler.py:43-44 | a function is used as given; a name resolves through the model table; an unknown name is a KeyError for that name |
| Sampler.PriorPathAsWritten | redback/sampler.py:47 | the prior path as the source formats it is `<package>/Priors/<repr of the function>.prior`, so it starts with `<package>/Priors/<function ` |
| Sampler.PriorPathAsWrittenMisses | redback/sampler.py:47 | the as-written prior path never equals `<package>/Priors/<name>.prior` and is at least 15 characters longer |
| Sampler.PriorPath | redback/sampler.py:47 | the intended prior path is exactly `<package>/Priors/<name>.prior`, 14 characters longer than the package directory and the name together |
| Sampler.InitialPriorAsWritten | redback/sampler.py:46-47 | a given prior is used as is; otherwise the prior stored at the repr-named path, or FileNotFoundError for that path when no such file exists |
| Sampler.InitialPrior | redback/sampler.py:46-47 | a given prior is used as is; otherwise the prior stored at `Priors/<name>.prior`, or FileNotFoundError for that path when no such file exists |
| Sampler.InitialPriorsAgreeWhenGiven | redback/sampler.py:46-47 | the as-written and intended priors agree whenever a prior is supplied; otherwise the as-written one is the load of the repr-named path, which is never the name-based path |
| Sampler.LoadPrior | redback/sampler.py:47 | `PriorDict(filename=path)` succeeds exactly when a prior file exists at the path, with its contents, and otherwise raises FileNotFoundError naming the path |
| Sampler.ReprPathIsNoModelPath | redback/sampler.py:47 | the repr-named path differs from `<package>/Priors/<identifier>.prior` for every Python identifier, at the character after `Priors/` |
| Sampler.ReprPriorFileMissing | redback/sampler.py:46-47 | when every prior file of the package is named after an identifier, the repr-named file does not exist and loading it raises FileNotFoundError |
| Sampler.PhotonIndexPrior | redback/sampler.py:82-88 | Uniform(−10, −0.5, "alpha_1") exactly when the photon index is negative; otherwise Gaussian with σ = 0.1 and μ = −(index + 1) ≤ −1 |
| Sampler.PhotonIndexPriorExamples | redback/sampler.py:83-88 | photon index 1.5 gives Gaussian(−2.5, 0.1); 0 takes the Gaussian branch with μ = −1; −0.1 gives the uniform prior |
| Sampler.AdjustPrior | redback/sampler.py:82-88 | without the flag the prior is unchanged; with it `alpha_1` is set to the photon-index prior and every other key and value is untouched |
| Sampler.Label | redback/sampler.py:94-96 | the label is exactly data_mode + "_photon_index" when the flag is set and data_mode otherwise; it is 13 characters longer exactly when the flag is set |
| Sampler.GrbOutdir | redback/sampler.py:91 | `{outdir}/GRB{name}/` followed by the model's name |
| Sampler.KilonovaOutdir | redback/sampler.py:123 | `{outdir}/{name}/` followed by the model's name, three characters shorter than the GRB directory |
| Sampler.SelectData | redback/sampler.py:98-101 | filtered data exactly when the transient has flux-density or photometry data, raw data otherwise |
| Sampler.SelectLikelihood | redback/sampler.py:103 | a supplied `likelihood` keyword is used exactly when present; otherwise a Gaussian likelihood over the selected x, y and y_err with the model and its kwargs |
| Sampler.StripKeys | redback/sampler.py:106 | each attribute's key with leading underscores stripped, values and order kept |
| Sampler.MetaHead | redback/sampler.py:105 | the metadata starts with exactly the keys `model` and `transient_type`, holding the model name and the transient type |
| Sampler.MetaData | redback/sampler.py:105-108 | keys are unique and in the reference order `MetaKeyOrder`: `model` and `transient_type`, then the stripped attribute keys in order of first occurrence, then `model_kwargs`, last unless an attribute strips to it; `model_kwargs` holds the argument; no key starts with "_"; the keys are exactly model, transient_type, model_kwargs and the stripped attribute keys |
| Sampler.MetaDataKeyOrder | redback/sampler.py:105-108 | the metadata keys are the head followed by the stripped attribute keys and `model_kwargs`, each placed at its first occurrence, so `model_kwargs` is last unless an attribute strips to it |
| Sampler.MetaKeyOrder | redback/sampler.py:105-108 | the reference key order: `model`, `transient_type`, the stripped attribute keys at their first occurrence, then `model_kwargs`, which is last unless an attribute strips to it |
| Sampler.MetaDataModelKwargsLast | redback/sampler.py:108 | when no attribute strips to `model_kwargs`, it is the last key of the metadata |
| Sampler.AssignModelKwargs | redback/sampler.py:108 | assigning `model_kwargs` keeps the keys unique, the leading `model` and `transient_type`, and the underscore-free keys, adds only `model_kwargs`, and reads back the assigned value |
| Sampler.MergedShape | redback/sampler.py:105-107 | after the update with the stripped attributes the keys are unique, `model` and `transient_type` still lead, and no key starts with "_" |
| Sampler.MetaDataAttribute | redback/sampler.py:106-108 | every stripped attribute key other than `model_kwargs` maps to the last value given for it |
| Sampler.MetaDataModelEntry | redback/sampler.py:105-108 | `model` holds the model's name unless an attribute overrides it |
| Sampler.MetaDataTransientTypeEntry | redback/sampler.py:105-108 | `transient_type` holds the given type unless an attribute overrides it |
| Sampler.RunSampler | redback/sampler.py:110-113 | the call fails with TypeError on exactly the repeated keywords; otherwise the sampler receives the arguments and the fixed settings maxmcmc = 10·walks, nthreads = 4, nsteps = nlive, nwalkers = walks, plot on, use_ratio and save_bounds off |
| Sampler.FitGrb | redback/sampler.py:79-115 | succeeds exactly when no keyword argument repeats a sampler keyword; the call carries the adjusted prior, the label, the GRB directory, the Gaussian likelihood, the metadata and the extra keywords; sampler, nlive, walks, resume and save format are forwarded, with nsteps = nlive, nwalkers = walks and maxmcmc = 10·walks |
| Sampler.FitKilonova | redback/sampler.py:118-147 | as the GRB fitter, with the prior untouched and the kilonova directory; the same forwarded sampler settings |
| Sampler.FitPrompt | redback/sampler.py:150-176 | a Poisson likelihood over the raw counts and bin size; the integrated rate is the caller's `integrated_rate_function` when given and True otherwise; that keyword is not forwarded; metadata type "prompt"; the same forwarded sampler settings |
| Sampler.LikelihoodOverrideRefused | redback/sampler.py:103-113 | a `likelihood` keyword reaches the sampler twice, so all three fitters fail |
| Sampler.FitterArgsOf | redback/sampler.py:50-63 | the arguments handed to a fitter: the resolved model and loaded prior, and name, transient, outdir, sampler, nlive, walks, the photon-index flag, data_mode, resume, save_format and model_kwargs passed through unchanged; `truncate` and `truncate_method` join the extra keywords for the GRB and kilonova fitters only |
| Sampler.FitModel | redback/sampler.py:19-76 | with the corrected prior path: model lookup, then the given prior or the name-based prior file (FileNotFoundError when missing, before any dispatch), then dispatch on the transient kind; Supernova and TDE give no result; an unknown kind raises ValueError naming its class |
| Sampler.FitModelAsWritten | redback/sampler.py:19-76 | as FitModel, but a missing prior is read from the repr-named file, and a FileNotFoundError for that file is raised before any dispatch |
| Sampler.FitModelAsWrittenAgreesWhenGiven | redback/sampler.py:46-47 | with a prior given, the as-written and corrected fits are identical |
| Sampler.FitModelAsWrittenGrbPrior | redback/sampler.py:46-88 | without a prior, a GRB fit as written raises FileNotFoundError when the repr-named file is missing; when both files exist it succeeds exactly when the corrected fit does; each samples with its own file's prior, with the photon-index adjustment |
| Sampler.FitModelAsWrittenMissesPriorFile | redback/sampler.py:43-49 | without a prior and with the package's prior files named after models, `fit_model` as written raises FileNotFoundError for the repr-named path whatever the transient, while the corrected fit raises it exactly when the model's own prior file is missing |
| Sampler.FitModelOutcomes | redback/sampler.py:43-76 | KeyError only for an unknown model name; FileNotFoundError exactly when no prior is given and the model's prior file is missing; ValueError exactly for an unknown kind once the prior is loaded; TypeError only from the three real fitters; no result exactly for Supernova and TDE once the prior is loaded |
| Sampler.DefaultAfterglowFit | redback/sampler.py:19-113 | a default afterglow fit whose model has its prior file reaches the sampler with that file's prior, label "flux", nlive 2000, maxmcmc 2000, 200 walkers and the truncation settings forwarded; as written, the same call raises FileNotFoundError for the repr-named path when the prior files are named after models |
| Sampler.TophatLibraryNamedByModel | redback/sampler.py:47 | a package shipping only `redback/Priors/tophat.prior` has its prior files named after models, and holds the prior of `tophat` |
| Sampler.TophatDefaultFit | redback/sampler.py:19-113 | `fit_model("140903A", afterglow, "tophat")` against that package samples with the shipped prior |
| Sampler.TophatReprPath | redback/sampler.py:47 | for `tophat` at 0x7f00 the source builds `redback/Priors/<function tophat at 0x7f00>.prior`, which that package does not ship |
| Sampler.TophatDefaultFitAsWritten | redback/sampler.py:43-49 | the same call as written raises FileNotFoundError for the repr-named path |
| AfterglowModels.Lookup | redback/redback/transient_models/afterglow_models.py:25 | `kwargs[key]` is the stored value, or KeyError naming the key |
| AfterglowModels.JetTypeOf | redback/redback/transient_models/afterglow_models.py:10-17 | the jet type table is usable exactly when afterglowpy imported |
| AfterglowModels.ReadSettings | redback/redback/transient_models/afterglow_models.py:25-30 | fails exactly with the first missing setting in source order (spread, latres, tres, jet table, spectype, frequency), and otherwise passes the settings on unchanged |
| AfterglowModels.ModelConfig | redback/redback/transient_models/afterglow_models.py:32-38 | every record fixes L0 = q = ts = 0 and z = redshift, copies spread, latRes, tRes and specType untranslated, exponentiates the medium, so that n0, ε_e and ε_B are positive under a lawful power of ten, and uses the luminosity distance at the redshift |
| AfterglowModels.JetShape | redback/redback/transient_models/afterglow_models.py:69-77 | E0 = 10^loge0; thetaWing is present exactly when a wing is, and is then thw·thc; `b` is present exactly when a beta is |
| AfterglowModels.JetModel | redback/redback/transient_models/afterglow_models.py:162-180 | fails exactly as the settings do, with their error; otherwise the record has the table's jet type and the given shape; spread, latres, tres and spectype (untranslated) come from the keywords, dL is the luminosity distance at the redshift, the medium is exponentiated; the solver gets the given times and the `frequency` keyword |
| AfterglowModels.Cocoon | redback/redback/transient_models/afterglow_models.py:23-40 | fails exactly as the settings do, with their error; otherwise a spherical record with uMax, Er = 10^logEi, uMin, k and MFast_solar as given; spread, latres, tres and spectype (untranslated) come from the keywords, dL is the luminosity distance at the redshift, the medium is exponentiated; the solver gets the given times and the `frequency` keyword |
| AfterglowModels.KnAfterglow | redback/redback/transient_models/afterglow_models.py:42-59 | fails exactly as the settings do, with their error; otherwise a spherical record with uMax, Er = 10^logEi, uMin, k and MFast_solar as given; spread, latres, tres and spectype (untranslated) come from the keywords, dL is the luminosity distance at the redshift, the medium is exponentiated; the solver gets the given times and the `frequency` keyword |
| AfterglowModels.CocoonIsKnAfterglow | redback/redback/transient_models/afterglow_models.py:23-59 | cocoon and kn_afterglow are the same function |
| AfterglowModels.ConeAfterglow | redback/redback/transient_models/afterglow_models.py:61-79 | fails exactly as the settings do, with their error; otherwise jet type Cone with thetaObs = thv, E0 = 10^loge0, thetaCore = thc, thetaWing = thw·thc, no `b`; spread, latres, tres and spectype (untranslated) come from the keywords, dL is the luminosity distance at the redshift, the medium is exponentiated; the solver gets the given times and the `frequency` keyword |
| AfterglowModels.GaussianCoreAfterglow | redback/redback/transient_models/afterglow_models.py:81-100 | fails exactly as the settings do, with their error; otherwise jet type GaussianCore with thetaObs = thv, E0 = 10^loge0, thetaCore = thc, thetaWing = thw·thc (parameters in thc, thw order), no `b`; spread, latres, tres and spectype (untranslated) come from the keywords, dL is the luminosity distance at the redshift, the medium is exponentiated; the solver gets the given times and the `frequency` keyword |
| AfterglowModels.GaussianAfterglow | redback/redback/transient_models/afterglow_models.py:102-120 | fails exactly as the settings do, with their error; otherwise jet type Gaussian with thetaObs = thv, E0 = 10^loge0, thetaCore = thc, thetaWing = thw·thc, no `b`; spread, latres, tres and spectype (untranslated) come from the keywords, dL is the luminosity distance at the redshift, the medium is exponentiated; the solver gets the given times and the `frequency` keyword |
| AfterglowModels.SmoothPowerLaw | redback/redback/transient_models/afterglow_models.py:122-140 | fails exactly as the settings do, with their error; otherwise jet type PowerLaw with thetaObs = thv, E0 = 10^loge0, thetaCore = thc, thetaWing = thw·thc, b = beta; spread, latres, tres and spectype (untranslated) come from the keywords, dL is the luminosity distance at the redshift, the medium is exponentiated; the solver gets the given times and the `frequency` keyword |
| AfterglowModels.PowerLawCoreAfterglow | redback/redback/transient_models/afterglow_models.py:142-160 | fails exactly as the settings do, with their error; otherwise jet type PowerLawCore with thetaObs = thv, E0 = 10^loge0, thetaCore = thc, thetaWing = thw·thc, b = beta; spread, latres, tres and spectype (untranslated) come from the keywords, dL is the luminosity distance at the redshift, the medium is exponentiated; the solver gets the given times and the `frequency` keyword |
| AfterglowModels.TopHatAfterglow | redback/redback/transient_models/afterglow_models.py:162-180 | fails exactly as the settings do, with their error; otherwise jet type TopHat with thetaObs = thv, E0 = 10^loge0, thetaCore = thc, neither thetaWing nor `b`; spread, latres, tres and spectype (untranslated) come from the keywords, dL is the luminosity distance at the redshift, the medium is exponentiated; the solver gets the given times and the `frequency` keyword |
| AfterglowModels.StructuredJetsRestructureTopHat | redback/redback/transient_models/afterglow_models.py:61-180 | each structured jet model is the top-hat model with only the jet type, thetaWing = thw·thc and (for the power laws) b = beta changed |
| AfterglowModels.CocoonSharesTopHatEntries | redback/redback/transient_models/afterglow_models.py:23-180 | cocoon and tophat fail together with the same error, and their records differ only in jet type and geometry |
| AfterglowModels.Flux | redback/redback/transient_models/afterglow_models.py:179 | the solver runs exactly when the record was built, and an error passes through; the value is the solver's output for the record's time, frequency and configuration |
| AfterglowModels.LinSpace3 | redback/redback/transient_models/afterglow_models.py:201 | three evenly spaced points from the lower to the upper bound |
| AfterglowModels.FrequencyBounds | redback/redback/transient_models/afterglow_models.py:191-201 | the first two entries of a sequence of at least two; IndexError for a shorter sequence |
| AfterglowModels.FlatGridIndex | redback/redback/transient_models/afterglow_models.py:202-204 | both flattened grids have 3·len(time) entries, and entry i·len(time)+j pairs nu_1d[i] with time[j] |
| AfterglowModels.RowsIndex | redback/redback/transient_models/afterglow_models.py:206 | row i, column j of the reshaped table is flat entry i·cols+j |
| AfterglowModels.FlattenRows | redback/redback/transient_models/afterglow_models.py:206 | flattening the reshaped table gives the original array back |
| AfterglowModels.Reshape | redback/redback/transient_models/afterglow_models.py:206 | succeeds exactly when the size matches, otherwise ValueError; the result has the requested number of rows, each of the requested width, is the row-major table and flattens back to the input |
| AfterglowModels.ScaledColumn | redback/redback/transient_models/afterglow_models.py:207-208 | column j of the table, each entry times 1e-26 |
| AfterglowModels.IntegrateOverFrequency | redback/redback/transient_models/afterglow_models.py:206-209 | one value per time; value j is Simpson's rule over the three scaled flux values of time j |
| AfterglowModels.GridCall | redback/redback/transient_models/afterglow_models.py:202-205 | the solver gets the grid record and 3·len(time) time and frequency points |
| AfterglowModels.GridCallIndex | redback/redback/transient_models/afterglow_models.py:202-205 | solver point i·len(time)+j is time[j] at frequency nu_1d[i] |
| AfterglowModels.TopHatIntegratedCall | redback/redback/transient_models/afterglow_models.py:182-205 | the settings errors come first; otherwise it succeeds exactly when the bounds can be read; the grid spans the bounds, over the top-hat record |
| AfterglowModels.TopHatIntegrated | redback/redback/transient_models/afterglow_models.py:182-210 | the settings errors come first, then the frequency-bounds error; with a well-formed call it succeeds exactly when the solver returns 3·len(time) values (ValueError otherwise) and value j is Simpson's rule over the three scaled fluxes of time j |
| AfterglowModels.TopHatIntegratedBand | redback/redback/transient_models/afterglow_models.py:182-210 | with valid settings and bounds and a pointwise solver, tophat_integrated succeeds with the band integral of the grid run |
| AfterglowModels.PointwiseColumn | redback/redback/transient_models/afterglow_models.py:202-205 | for a pointwise solver, grid entries j, n+j and 2n+j are the flux at time j and each of the three frequencies |
| AfterglowModels.BandIntegralPointwise | redback/redback/transient_models/afterglow_models.py:206-209 | for a pointwise solver, value j of the band integral is Simpson's rule over the scaled fluxes at time j and the three frequencies |
| AfterglowModels.TopHatIntegratedPointwise | redback/redback/transient_models/afterglow_models.py:182-210 | end to end, for a pointwise solver: value j of the integrated light curve is Simpson's rule over 1e-26 times the flux at time j and each of linspace(lo, hi, 3) |
| Analysis.Join | grb_bilby/analysis/Analysis.py:16 | POSIX join: an absolute second part replaces the first; otherwise the parts are concatenated, with a "/" between them unless the first is empty or ends in "/" |
| Analysis.FindPath | grb_bilby/analysis/Analysis.py:14-19 | "default" resolves to exactly join(package directory, "../data/GRBData"); any other path is returned unchanged |
| Analysis.FindPathIdempotent | grb_bilby/analysis/Analysis.py:14-19 | resolving an already resolved path changes nothing |
| Analysis.ResultDirectory | grb_bilby/analysis/Analysis.py:41 | exactly `path + "/GRB" + grb + "/" + model + "/"` |
| Analysis.ResultDirectoryInjective | grb_bilby/analysis/Analysis.py:41 | for one path and GRB, two models share a result directory exactly when they are the same model |
| Analysis.ResultFilename | grb_bilby/analysis/Analysis.py:44-47 | `photon_index_result.json` exactly when the flag compares equal to True, `result_result.json` otherwise |
| Analysis.TruthyFlagIsNotTrue | grb_bilby/analysis/Analysis.py:44-47 | only values equal to True select `photon_index_result.json`; other truthy values read `result_result.json` |
| Analysis.ReadResult | grb_bilby/analysis/Analysis.py:33-50 | creates the result directory; succeeds exactly when the result file exists; returns its log evidence and the data loaded from the resolved data path |
| Analysis.CalculateBF | grb_bilby/analysis/Analysis.py:183-188 | succeeds exactly when both result files exist, giving log Z₁ − log Z₂ with both read under the same flag; a missing first file is the error, else a missing second file; the stored evidence is untouched |
| Analysis.BayesFactorSelf | grb_bilby/analysis/Analysis.py:186 | a model compared with itself gives 0 |
| Analysis.BayesFactorAntisymmetric | grb_bilby/analysis/Analysis.py:186 | swapping the models negates the log Bayes factor, and both orders succeed together |
| Analysis.BayesFactorMakesDirectories | grb_bilby/analysis/Analysis.py:183-188 | the first model's result directory always exists afterwards, and the second's too when the first read succeeded |
| Analysis.SamplerOutdirIsResultDirectory | grb_bilby/analysis/Analysis.py:41 | the directory the GRB fitter writes to, plus "/", is the directory results are read from |
| Analysis.LabelMatchesResultFilename | grb_bilby/analysis/Analysis.py:44-47 | the GRB fitter's `<label>_result.json` matches the read file name exactly when the flag is off and data_mode is "result" |

## Left out

- bilby's `run_sampler`, prior-file parsing and result reading are not modelled. A fit ends in the exact call the sampler would receive; the prior files are a map from path to parsed prior in `Library`, so a file either exists with its prior or is missing; a stored result is its log evidence.
- The likelihood classes are records of their constructor arguments; their evaluation is not modelled.
- afterglowpy's `fluxDensity`, astropy's luminosity distance and physical constants, and scipy's `simps` are function parameters (`Backend`, `PhysicalConstants`).
- ln, powers, square root, `10**x` and π are abstract (`RealOps`). Only the facts in `Lawful` are assumed of them.
- Floating-point rounding, overflow of `10**x`, and numpy's inf/nan on division by zero are not modelled. The model computes over reals and reports a division by zero as `DivisionByZero`.
- The ejecta classes decorate their formula methods with `@property` and then call the results in `__init__`, so construction fails in Python. The model computes the formulas as evidently intended, as pure functions of the constructor arguments.
- EjectaRelations.BaryonicMassEosInsensitive: states mb ≥ mass_g for positive R₁.₄. It does not state the strict mb > mass_g for non-zero mass_g, because the solver does not connect the square's positivity to the quotient.
- Directory creation on the fitting side (`Path.mkdir`), logging and plotting are not modelled; `load_data` is represented only by the arguments it receives (`GrbData`).
- `fit_model` mutates a caller-supplied prior dictionary in place when it sets `alpha_1`. The model returns a new dictionary, so the caller's alias is not represented.
- The `latex_label` of the `alpha_1` priors is not modelled.
- `isinstance` checks against the transient class hierarchy become one `TransientKind` per transient. A subclass relation between transient classes, if any, is not represented.
- `str.lower` is modelled on ASCII letters only.
- AfterglowModels.FrequencyBounds: only a sequence of reals or a string is told apart. Every other non-indexable frequency value is a TypeError. numpy scalars and arrays of other element types are not modelled.
- Sampler.FitModel: models `fit_model` with the corrected prior path (`Priors/<name>.prior`), not the repr-named path line 47 builds. Sampler.FitModelAsWritten models the code as written; the two agree whenever a prior is given (see Findings).
- Sampler.FitModelAsWrittenMissesPriorFile: the as-written failure is stated for packages whose prior files are all named `Priors/<identifier>.prior` (`PriorsNamedByModel`). Which files the installed package ships is not modelled; that layout is an assumption about it.
- AfterglowModels.TopHatIntegratedPointwise: the pointwise value holds only for a solver that returns one value per (time, frequency) pair and evaluates each pair independently (`PointwiseSolver`). That is an assumption about afterglowpy, not something the model proves of it.
- `spectype_dict` is declared (`SpecTypes`) but, as in the source, consulted by no model.
- The repository's plotting, data download and TDE transient code lie outside this model.

Where the code and its description differ, the model follows the code:
- `_fit_prompt` takes `integrated_rate_function` from the caller's keyword arguments when one is given. Otherwise it is True.
- A `likelihood` keyword chooses the likelihood. The same keyword is also forwarded to `run_sampler`, which already receives `likelihood=`, so the call raises TypeError (`Sampler.LikelihoodOverrideRefused`).
- `truncate` and `truncate_method` are not parameters of the GRB and kilonova fitters. They reach the sampler as extra keyword arguments.

## Findings

| source | as written | input that shows it | evidently intended | confidence | as-written member | corrected member |
|---|---|---|---|---|---|---|
| redback/sampler.py:47 | the prior file path formats the model function object, giving `<dir>/Priors/<function tophat at 0x7f00>.prior`; no such file exists, so a call without a prior raises FileNotFoundError before any fitter runs | `fit_model(..., model="tophat", prior=None)`, with "tophat" resolving to a function named `tophat` | `<dir>/Priors/tophat.prior`, the model's name | not executed | Sampler.PriorPathAsWritten, Sampler.PriorPathAsWrittenMisses, Sampler.InitialPriorAsWritten, Sampler.FitModelAsWritten, Sampler.FitModelAsWrittenMissesPriorFile, Sampler.TophatDefaultFitAsWritten | Sampler.PriorPath, Sampler.InitialPrior, Sampler.FitModel, Sampler.TophatDefaultFit |

=== FILE: afterglow_models.dfy ===
/**
 * The afterglow models of redback. Each model reads its settings from the
 * keyword arguments, exponentiates its log-parametrised inputs and builds the
 * configuration dictionary it hands to afterglowpy's `fluxDensity`, with a jet
 * type chosen per model. The luminosity distance, afterglowpy itself and
 * Simpson's rule are parameters. `tophat_integrated` also lays a time by
 * frequency grid out flat for the solver and folds the result back.
 */
module AfterglowModels {
  import opened Wrappers
  import opened PyValues
  import opened RealFunctions

  datatype JetType = TopHat | Gaussian | PowerLawCore | GaussianCore | Spherical | PowerLaw | Cone

  /** `jettype_dict`: jet structures by name; only defined when afterglowpy imports. */
  const JetTypes: map<string, JetType> := map[
    "tophat" := TopHat, "gaussian" := Gaussian, "powerlaw_w_core" := PowerLawCore,
    "gaussian_w_core" := GaussianCore, "cocoon" := Spherical, "smooth_power_law" := PowerLaw,
    "cone" := Cone]

  /** `spectype_dict`: defined next to the jet types, and consulted by no model. */
  const SpecTypes: map<string, int> := map["no_inverse_compton" := 0, "inverse_compton" := 1]

  /**
   * The shape entries of `Z`: a structured jet (`thetaObs`, `E0`, `thetaCore`,
   * and the optional `thetaWing` and `b`) or a spherical outflow (`uMax`, `Er`,
   * `uMin`, `k`, `MFast_solar`).
   */
  datatype Geometry =
    | JetGeometry(thetaObs: real, e0: real, thetaCore: real, thetaWing: Option<real>, b: Option<real>)
    | SphericalGeometry(uMax: real, er: real, uMin: real, k: real, mFastSolar: real)

  /** The dictionary `Z` a model passes to `fluxDensity` as keyword arguments, one field per entry. */
  datatype Config = Config(
    jetType: JetType,
    specType: KwValue,
    geometry: Geometry,
    n0: real,
    p: real,
    epsilonE: real,
    epsilonB: real,
    xiN: real,
    dL: real,
    z: real,
    l0: real,
    q: real,
    ts: real,
    g0: real,
    spread: KwValue,
    latRes: KwValue,
    tRes: KwValue)

  datatype AfterglowError =
    | KeyError(key: string)
    /** `jettype_dict` is undefined when afterglowpy failed to import. */
    | NameError(name: string)
    | IndexError
    | TypeError
    /** `reshape` of an array whose size does not match. */
    | ValueError

  /** The numerical back ends, abstract. */
  datatype Backend = Backend(
    ops: RealOps,
    afterglowpyInstalled: bool,
    luminosityDistance: real -> real,
    fluxDensity: (seq<real>, KwValue, Config) -> seq<real>,
    simpson: (seq<real>, seq<real>) -> real)

  /** The circumburst and microphysics inputs every model takes. */
  datatype Medium = Medium(logn0: real, p: real, logepse: real, logepsb: real, ksin: real, g0: real)

  /** The keyword arguments every model reads. */
  datatype Settings = Settings(spread: KwValue, latres: KwValue, tres: KwValue, jet: JetType,
                               spectype: KwValue, frequency: KwValue)

  /** One call of `fluxDensity(time, frequency, **Z)`. */
  datatype SolverCall = SolverCall(time: seq<real>, frequency: KwValue, config: Config)

  // ---------------------------------------------------------------------
  // Reading the keyword arguments

  /**
   * The error the settings raise, reading them as every model does: spread,
   * latres, tres, then the jet-type table, then spectype and frequency.
   */
  function SettingsError(b: Backend, kwargs: map<string, KwValue>): Option<AfterglowError> {
    if "spread" !in kwargs then Some(KeyError("spread"))
    else if "latres" !in kwargs then Some(KeyError("latres"))
    else if "tres" !in kwargs then Some(KeyError("tres"))
    else if !b.afterglowpyInstalled then Some(NameError("jettype_dict"))
    else if "spectype" !in kwargs then Some(KeyError("spectype"))
    else if "frequency" !in kwargs then Some(KeyError("frequency"))
    else None
  }

  function Lookup(kwargs: map<string, KwValue>, key: string): (r: Result<KwValue, AfterglowError>)
    ensures r.Success? <==> key in kwargs
    ensures r.Success? ==> r.value == kwargs[key]
    ensures r.Failure? ==> r.error == KeyError(key)
  {
    if key in kwargs then Success(kwargs[key]) else Failure(KeyError(key))
  }

  function JetTypeOf(b: Backend, jetName: string): (r: Result<JetType, AfterglowError>)
    requires jetName in JetTypes
    ensures r.Success? <==> b.afterglowpyInstalled
    ensures r.Success? ==> r.value == JetTypes[jetName]
  {
    if b.afterglowpyInstalled then Success(JetTypes[jetName]) else Failure(NameError("jettype_dict"))
  }

  /** The settings of a model with the given jet type: the first missing one is the error. */
  function ReadSettings(b: Backend, kwargs: map<string, KwValue>, jetName: string): (r: Result<Settings, AfterglowError>)
    requires jetName in JetTypes
    ensures r.Failure? <==> SettingsError(b, kwargs).Some?
    ensures r.Failure? ==> r.error == SettingsError(b, kwargs).value
    ensures r.Success? ==> r.value.jet == JetTypes[jetName]
    ensures r.Success? ==> && r.value.spread == kwargs["spread"] && r.value.latres == kwargs["latres"]
                           && r.value.tres == kwargs["tres"] && r.value.spectype == kwargs["spectype"]
                           && r.value.frequency == kwargs["frequency"]
  {
    var spread :- Lookup(kwargs, "spread");
    var latres :- Lookup(kwargs, "latres");
    var tres :- Lookup(kwargs, "tres");
    var jet :- JetTypeOf(b, jetName);
    var spectype :- Lookup(kwargs, "spectype");
    var frequency :- Lookup(kwargs, "frequency");
    Success(Settings(spread, latres, tres, jet, spectype, frequency))
  }

  // ---------------------------------------------------------------------
  // The configuration dictionaries

  /** No energy injection (L0 = q = ts = 0), and the source redshift. */
  predicate FixedEntries(c: Config, redshift: real) {
    c.l0 == 0.0 && c.q == 0.0 && c.ts == 0.0 && c.z == redshift
  }

  /** spread, latres, tres and spectype are handed on as given; spectype is not translated. */
  predicate PassedSettings(c: Config, s: Settings) {
    c.spread == s.spread && c.latRes == s.latres && c.tRes == s.tres && c.specType == s.spectype
  }

  /** The density and the microphysical fractions are ten to the power of their log inputs. */
  predicate MediumEntries(c: Config, ops: RealOps, m: Medium) {
    && c.n0 == ops.pow10(m.logn0) && c.epsilonE == ops.pow10(m.logepse) && c.epsilonB == ops.pow10(m.logepsb)
    && c.p == m.p && c.xiN == m.ksin && c.g0 == m.g0
  }

  /** The dictionary every model builds, around its own shape entries. */
  function ModelConfig(b: Backend, s: Settings, redshift: real, m: Medium, geometry: Geometry): (c: Config)
    ensures FixedEntries(c, redshift) && PassedSettings(c, s) && MediumEntries(c, b.ops, m)
    ensures c.jetType == s.jet && c.geometry == geometry && c.dL == b.luminosityDistance(redshift)
    ensures Lawful(b.ops) ==> c.n0 > 0.0 && c.epsilonE > 0.0 && c.epsilonB > 0.0
  {
    Config(s.jet, s.spectype, geometry, b.ops.pow10(m.logn0), m.p, b.ops.pow10(m.logepse),
           b.ops.pow10(m.logepsb), m.ksin, b.luminosityDistance(redshift), redshift, 0.0, 0.0, 0.0, m.g0,
           s.spread, s.latres, s.tres)
  }

  /**
   * The shape of a structured jet: the energy exponentiated, and the wing
   * factor taken relative to the core width.
   */
  function JetShape(ops: RealOps, thv: real, loge0: real, thc: real, wing: Option<real>, beta: Option<real>)
    : (g: Geometry)
    ensures g.JetGeometry? && g.thetaObs == thv && g.thetaCore == thc && g.e0 == ops.pow10(loge0)
    ensures g.thetaWing.Some? <==> wing.Some?
    ensures wing.Some? ==> g.thetaWing.value == WingWidth(wing.value, thc)
    ensures g.b == beta
  {
    JetGeometry(thv, ops.pow10(loge0), thc, if wing.Some? then Some(WingWidth(wing.value, thc)) else None, beta)
  }

  /** `thw = thw * thc`: the wing width, given as a multiple of the core width. */
  function WingWidth(thw: real, thc: real): real {
    thw * thc
  }

  /**
   * The entries every model fills the same way: spread, latRes, tRes and
   * specType as the keyword arguments give them, the luminosity distance at the
   * redshift, no energy injection, and the exponentiated medium.
   */
  predicate CommonEntries(c: Config, b: Backend, kwargs: map<string, KwValue>, redshift: real, m: Medium) {
    && "spread" in kwargs && "latres" in kwargs && "tres" in kwargs && "spectype" in kwargs
    && c.spread == kwargs["spread"] && c.latRes == kwargs["latres"] && c.tRes == kwargs["tres"]
    && c.specType == kwargs["spectype"]
    && c.dL == b.luminosityDistance(redshift)
    && FixedEntries(c, redshift) && MediumEntries(c, b.ops, m)
  }

  /** The solver is called on the model's own times and on the `frequency` keyword argument. */
  predicate CallsAt(call: SolverCall, time: seq<real>, kwargs: map<string, KwValue>) {
    "frequency" in kwargs && call.time == time && call.frequency == kwargs["frequency"]
  }

  // ---------------------------------------------------------------------
  // The models

  /** A structured-jet model: read the settings for its jet type, build the configuration, call the solver. */
  function JetModel(b: Backend, jetName: string, time: seq<real>, redshift: real, thv: real, loge0: real,
                    thc: real, wing: Option<real>, beta: Option<real>, m: Medium, kwargs: map<string, KwValue>)
    : (r: Result<SolverCall, AfterglowError>)
    requires jetName in JetTypes
    ensures r.Failure? <==> SettingsError(b, kwargs).Some?
    ensures r.Failure? ==> r.error == SettingsError(b, kwargs).value
    ensures r.Success? ==> CallsAt(r.value, time, kwargs)
    ensures r.Success? ==> var c := r.value.config;
      && c.jetType == JetTypes[jetName] && c.geometry == JetShape(b.ops, thv, loge0, thc, wing, beta)
      && CommonEntries(c, b, kwargs, redshift, m)
  {
    var s :- ReadSettings(b, kwargs, jetName);
    Success(SolverCall(time, s.frequency, ModelConfig(b, s, redshift, m, JetShape(b.ops, thv, loge0, thc, wing, beta))))
  }

  /** `cocoon`: a spherical outflow with energy 10^logEi. */
  function Cocoon(b: Backend, time: seq<real>, redshift: real, umax: real, umin: real, logEi: real, k: real,
                  mej: real, m: Medium, kwargs: map<string, KwValue>): (r: Result<SolverCall, AfterglowError>)
    ensures r.Failure? <==> SettingsError(b, kwargs).Some?
    ensures r.Failure? ==> r.error == SettingsError(b, kwargs).value
    ensures r.Success? ==> CallsAt(r.value, time, kwargs)
    ensures r.Success? ==> var c := r.value.config;
      && c.jetType == Spherical && c.geometry == SphericalGeometry(umax, b.ops.pow10(logEi), umin, k, mej)
      && CommonEntries(c, b, kwargs, redshift, m)
  {
    var s :- ReadSettings(b, kwargs, "cocoon");
    var shape := SphericalGeometry(umax, b.ops.pow10(logEi), umin, k, mej);
    Success(SolverCall(time, s.frequency, ModelConfig(b, s, redshift, m, shape)))
  }

  /** `kn_afterglow`: the same computation as `cocoon`. */
  function KnAfterglow(b: Backend, time: seq<real>, redshift: real, umax: real, umin: real, logEi: real, k: real,
                       mej: real, m: Medium, kwargs: map<string, KwValue>): (r: Result<SolverCall, AfterglowError>)
    ensures r.Failure? <==> SettingsError(b, kwargs).Some?
    ensures r.Failure? ==> r.error == SettingsError(b, kwargs).value
    ensures r.Success? ==> CallsAt(r.value, time, kwargs)
    ensures r.Success? ==> var c := r.value.config;
      && c.jetType == Spherical && c.geometry == SphericalGeometry(umax, b.ops.pow10(logEi), umin, k, mej)
      && CommonEntries(c, b, kwargs, redshift, m)
  {
    var s :- ReadSettings(b, kwargs, "cocoon");
    var shape := SphericalGeometry(umax, b.ops.pow10(logEi), umin, k, mej);
    Success(SolverCall(time, s.frequency, ModelConfig(b, s, redshift, m, shape)))
  }

  lemma CocoonIsKnAfterglow(b: Backend, time: seq<real>, redshift: real, umax: real, umin: real, logEi: real,
                            k: real, mej: real, m: Medium, kwargs: map<string, KwValue>)
    ensures Cocoon(b, time, redshift, umax, umin, logEi, k, mej, m, kwargs)
         == KnAfterglow(b, time, redshift, umax, umin, logEi, k, mej, m, kwargs)
  {
  }

  /** `cone_afterglow(time, redshift, thv, loge0, thw, thc, ...)`. */
  function ConeAfterglow(b: Backend, time: seq<real>, redshift: real, thv: real, loge0: real, thw: real, thc: real,
                         m: Medium, kwargs: map<string, KwValue>): (r: Result<SolverCall, AfterglowError>)
    ensures r.Failure? <==> SettingsError(b, kwargs).Some?
    ensures r.Failure? ==> r.error == SettingsError(b, kwargs).value
    ensures r.Success? ==> CallsAt(r.value, time, kwargs)
    ensures r.Success? ==> var c := r.value.config;
      && c.jetType == Cone && c.geometry == JetGeometry(thv, b.ops.pow10(loge0), thc, Some(WingWidth(thw, thc)), None)
      && CommonEntries(c, b, kwargs, redshift, m)
  {
    JetModel(b, "cone", time, redshift, thv, loge0, thc, Some(thw), None, m, kwargs)
  }

  /** `gaussiancore(time, redshift, thv, loge0, thc, thw, ...)`: the core width comes before the wing factor. */
  function GaussianCoreAfterglow(b: Backend, time: seq<real>, redshift: real, thv: real, loge0: real, thc: real,
                                 thw: real, m: Medium, kwargs: map<string, KwValue>)
    : (r: Result<SolverCall, AfterglowError>)
    ensures r.Failure? <==> SettingsError(b, kwargs).Some?
    ensures r.Failure? ==> r.error == SettingsError(b, kwargs).value
    ensures r.Success? ==> CallsAt(r.value, time, kwargs)
    ensures r.Success? ==> var c := r.value.config;
      && c.jetType == GaussianCore && c.geometry == JetGeometry(thv, b.ops.pow10(loge0), thc, Some(WingWidth(thw, thc)), None)
      && CommonEntries(c, b, kwargs, redshift, m)
  {
    JetModel(b, "gaussian_w_core", time, redshift, thv, loge0, thc, Some(thw), None, m, kwargs)
  }

  /** `gaussian(time, redshift, thv, loge0, thw, thc, ...)`. */
  function GaussianAfterglow(b: Backend, time: seq<real>, redshift: real, thv: real, loge0: real, thw: real,
                             thc: real, m: Medium, kwargs: map<string, KwValue>)
    : (r: Result<SolverCall, AfterglowError>)
    ensures r.Failure? <==> SettingsError(b, kwargs).Some?
    ensures r.Failure? ==> r.error == SettingsError(b, kwargs).value
    ensures r.Success? ==> CallsAt(r.value, time, kwargs)
    ensures r.Success? ==> var c := r.value.config;
      && c.jetType == Gaussian && c.geometry == JetGeometry(thv, b.ops.pow10(loge0), thc, Some(WingWidth(thw, thc)), None)
      && CommonEntries(c, b, kwargs, redshift, m)
  {
    JetModel(b, "gaussian", time, redshift, thv, loge0, thc, Some(thw), None, m, kwargs)
  }

  /** `smoothpowerlaw(time, redshift, thv, loge0, thw, thc, beta, ...)`. */
  function SmoothPowerLaw(b: Backend, time: seq<real>, redshift: real, thv: real, loge0: real, thw: real,
                          thc: real, beta: real, m: Medium, kwargs: map<string, KwValue>)
    : (r: Result<SolverCall, AfterglowError>)
    ensures r.Failure? <==> SettingsError(b, kwargs).Some?
    ensures r.Failure? ==> r.error == SettingsError(b, kwargs).value
    ensures r.Success? ==> CallsAt(r.value, time, kwargs)
    ensures r.Success? ==> var c := r.value.config;
      && c.jetType == PowerLaw && c.geometry == JetGeometry(thv, b.ops.pow10(loge0), thc, Some(WingWidth(thw, thc)), Some(beta))
      && CommonEntries(c, b, kwargs, redshift, m)
  {
    JetModel(b, "smooth_power_law", time, redshift, thv, loge0, thc, Some(thw), Some(beta), m, kwargs)
  }

  /** `powerlawcore(time, redshift, thv, loge0, thw, thc, beta, ...)`. */
  function PowerLawCoreAfterglow(b: Backend, time: seq<real>, redshift: real, thv: real, loge0: real, thw: real,
                                 thc: real, beta: real, m: Medium, kwargs: map<string, KwValue>)
    : (r: Result<SolverCall, AfterglowError>)
    ensures r.Failure? <==> SettingsError(b, kwargs).Some?
    ensures r.Failure? ==> r.error == SettingsError(b, kwargs).value
    ensures r.Success? ==> CallsAt(r.value, time, kwargs)
    ensures r.Success? ==> var c := r.value.config;
      && c.jetType == PowerLawCore && c.geometry == JetGeometry(thv, b.ops.pow10(loge0), thc, Some(WingWidth(thw, thc)), Some(beta))
      && CommonEntries(c, b, kwargs, redshift, m)
  {
    JetModel(b, "powerlaw_w_core", time, redshift, thv, loge0, thc, Some(thw), Some(beta), m, kwargs)
  }

  /** `tophat(time, redshift, thv, loge0, thc, ...)`: no wing and no power-law index. */
  function TopHatAfterglow(b: Backend, time: seq<real>, redshift: real, thv: real, loge0: real, thc: real,
                           m: Medium, kwargs: map<string, KwValue>): (r: Result<SolverCall, AfterglowError>)
    ensures r.Failure? <==> SettingsError(b, kwargs).Some?
    ensures r.Failure? ==> r.error == SettingsError(b, kwargs).value
    ensures r.Success? ==> CallsAt(r.value, time, kwargs)
    ensures r.Success? ==> var c := r.value.config;
      && c.jetType == TopHat && c.geometry == JetGeometry(thv, b.ops.pow10(loge0), thc, None, None)
      && CommonEntries(c, b, kwargs, redshift, m)
  {
    JetModel(b, "tophat", time, redshift, thv, loge0, thc, None, None, m, kwargs)
  }

  /** A call with the jet type, the wing width and the power-law index of its jet replaced. */
  function Restructure(r: Result<SolverCall, AfterglowError>, jet: JetType, wing: Option<real>, beta: Option<real>)
    : Result<SolverCall, AfterglowError>
  {
    if r.Success? && r.value.config.geometry.JetGeometry? then
      var c := r.value.config;
      Success(r.value.(config := c.(jetType := jet, geometry := c.geometry.(thetaWing := wing, b := beta))))
    else r
  }

  /**
   * The structured jets differ from the top hat only in the jet type and the
   * `thetaWing` and `b` entries: they fail when it fails, and otherwise make the
   * same call with the same record apart from those three entries.
   */
  lemma StructuredJetsRestructureTopHat(b: Backend, time: seq<real>, redshift: real, thv: real, loge0: real,
                                        thw: real, thc: real, beta: real, m: Medium, kwargs: map<string, KwValue>)
    ensures var top := TopHatAfterglow(b, time, redshift, thv, loge0, thc, m, kwargs);
      var wing := Some(WingWidth(thw, thc));
      && ConeAfterglow(b, time, redshift, thv, loge0, thw, thc, m, kwargs) == Restructure(top, Cone, wing, None)
      && GaussianCoreAfterglow(b, time, redshift, thv, loge0, thc, thw, m, kwargs)
         == Restructure(top, GaussianCore, wing, None)
      && GaussianAfterglow(b, time, redshift, thv, loge0, thw, thc, m, kwargs) == Restructure(top, Gaussian, wing, None)
      && SmoothPowerLaw(b, time, redshift, thv, loge0, thw, thc, beta, m, kwargs)
         == Restructure(top, PowerLaw, wing, Some(beta))
      && PowerLawCoreAfterglow(b, time, redshift, thv, loge0, thw, thc, beta, m, kwargs)
         == Restructure(top, PowerLawCore, wing, Some(beta))
  {
  }

  /**
   * The spherical outflow shares every entry but the jet type and the shape
   * with the top hat, and fails exactly when the top hat does.
   */
  lemma CocoonSharesTopHatEntries(b: Backend, time: seq<real>, redshift: real, thv: real, loge0: real, thc: real,
                                  umax: real, umin: real, logEi: real, k: real, mej: real, m: Medium,
                                  kwargs: map<string, KwValue>)
    ensures var top := TopHatAfterglow(b, time, redshift, thv, loge0, thc, m, kwargs);
      var cocoon := Cocoon(b, time, redshift, umax, umin, logEi, k, mej, m, kwargs);
      && (cocoon.Success? <==> top.Success?)
      && (cocoon.Failure? ==> cocoon.error == top.error)
      && (cocoon.Success? ==> cocoon.value.(config := cocoon.value.config.(jetType := TopHat,
                                            geometry := top.value.config.geometry)) == top.value)
  {
  }

  /** The flux density a model returns: the solver applied to the call the model builds. */
  function Flux(b: Backend, call: Result<SolverCall, AfterglowError>): (r: Result<seq<real>, AfterglowError>)
    ensures r.Success? <==> call.Success?
    ensures call.Failure? ==> r.error == call.error
    ensures call.Success? ==> r.value == b.fluxDensity(call.value.time, call.value.frequency, call.value.config)
  {
    var c :- call;
    Success(b.fluxDensity(c.time, c.frequency, c.config))
  }

  // ---------------------------------------------------------------------
  // tophat_integrated: the time by frequency grid

  /** `np.linspace(lo, hi, 3)`. */
  function LinSpace3(lo: real, hi: real): (nu: seq<real>)
    ensures |nu| == 3 && nu[0] == lo && nu[2] == hi
    ensures nu[1] - nu[0] == nu[2] - nu[1]
  {
    [lo, lo + (hi - lo) / 2.0, hi]
  }

  /** `frequency_bounds[0]` and `frequency_bounds[1]`. */
  function FrequencyBounds(v: KwValue): (r: Result<(real, real), AfterglowError>)
    ensures r.Success? <==> v.KwReals? && |v.xs| >= 2
    ensures r.Success? ==> r.value == (v.xs[0], v.xs[1])
    ensures v.KwReals? && |v.xs| < 2 ==> r == Failure(IndexError)
  {
    match v
    case KwReals(xs) => if |xs| >= 2 then Success((xs[0], xs[1])) else Failure(IndexError)
    case KwStr(s) => if |s| >= 2 then Failure(TypeError) else Failure(IndexError)
    case _ => Failure(TypeError)
  }

  /** The flattened time coordinate of `np.meshgrid(time, nu_1d)`: the times, once per frequency. */
  function FlatTimes(time: seq<real>, rows: nat): (t: seq<real>)
    decreases rows
  {
    if rows == 0 then [] else FlatTimes(time, rows - 1) + time
  }

  function Repeat(x: real, n: nat): (s: seq<real>)
    ensures |s| == n && forall k :: 0 <= k < n ==> s[k] == x
  {
    seq(n, k requires 0 <= k < n => x)
  }

  /** The flattened frequency coordinate: each frequency once per time. */
  function FlatFreqs(nu1d: seq<real>, cols: nat): (nu: seq<real>)
    decreases |nu1d|
  {
    if |nu1d| == 0 then [] else FlatFreqs(nu1d[..|nu1d| - 1], cols) + Repeat(nu1d[|nu1d| - 1], cols)
  }

  lemma MulStep(i: nat, n: nat)
    ensures (i + 1) * n == i * n + n
  {
  }

  lemma MulMonotone(i: nat, k: nat, n: nat)
    requires i < k
    ensures i * n + n <= k * n
    decreases k - i
  {
    if i + 1 < k {
      MulMonotone(i + 1, k, n);
    }
    MulStep(i, n);
  }

  /** Entry `i * n + j` of the flat grid pairs the `i`-th frequency with the `j`-th time. */
  lemma {:induction false} FlatGridIndex(time: seq<real>, nu1d: seq<real>, i: nat, j: nat)
    requires i < |nu1d| && j < |time|
    ensures |FlatTimes(time, |nu1d|)| == |nu1d| * |time| == |FlatFreqs(nu1d, |time|)|
    ensures i * |time| + j < |nu1d| * |time|
    ensures FlatTimes(time, |nu1d|)[i * |time| + j] == time[j]
    ensures FlatFreqs(nu1d, |time|)[i * |time| + j] == nu1d[i]
    decreases |nu1d|
  {
    var n := |time|;
    var k := |nu1d| - 1;
    var front := nu1d[..k];
    FlatLengths(time, nu1d);
    FlatLengths(time, front);
    MulStep(k, n);
    if i < k {
      FlatGridIndex(time, front, i, j);
      MulMonotone(i, k, n);
      assert front[i] == nu1d[i];
    } else {
      assert i * n + j - k * n == j;
    }
  }

  lemma {:induction false} FlatLengths(time: seq<real>, nu1d: seq<real>)
    ensures |FlatTimes(time, |nu1d|)| == |nu1d| * |time| == |FlatFreqs(nu1d, |time|)|
    decreases |nu1d|
  {
    if |nu1d| > 0 {
      FlatLengths(time, nu1d[..|nu1d| - 1]);
      MulStep(|nu1d| - 1, |time|);
    }
  }

  /** `reshape(rows, cols)` of a flat array, row by row. */
  function Rows(flat: seq<real>, rows: nat, cols: nat): (table: seq<seq<real>>)
    requires |flat| == rows * cols
    ensures |table| == rows
    ensures forall i :: 0 <= i < rows ==> |table[i]| == cols
    decreases rows
  {
    if rows == 0 then []
    else
      MulStep(rows - 1, cols);
      [flat[..cols]] + Rows(flat[cols..], rows - 1, cols)
  }

  lemma {:induction false} RowsIndex(flat: seq<real>, rows: nat, cols: nat, i: nat, j: nat)
    requires |flat| == rows * cols && i < rows && j < cols
    ensures i * cols + j < |flat|
    ensures Rows(flat, rows, cols)[i][j] == flat[i * cols + j]
    decreases rows
  {
    MulStep(rows - 1, cols);
    var table := Rows(flat, rows, cols);
    var rest := Rows(flat[cols..], rows - 1, cols);
    assert table == [flat[..cols]] + rest;
    if i == 0 {
      assert table[0] == flat[..cols];
    } else {
      RowsIndex(flat[cols..], rows - 1, cols, i - 1, j);
      MulStep(i - 1, cols);
      var k := (i - 1) * cols + j;
      assert i * cols + j == cols + k;
      assert table[i] == rest[i - 1];
      assert rest[i - 1][j] == flat[cols..][k];
    }
  }

  /** `flatten` of a table: its rows one after another. */
  function Flatten(table: seq<seq<real>>): (flat: seq<real>)
    decreases |table|
  {
    if |table| == 0 then [] else table[0] + Flatten(table[1..])
  }

  /** Reshaping and flattening again gives back the flat array. */
  lemma {:induction false} FlattenRows(flat: seq<real>, rows: nat, cols: nat)
    requires |flat| == rows * cols
    ensures Flatten(Rows(flat, rows, cols)) == flat
    decreases rows
  {
    if rows > 0 {
      MulStep(rows - 1, cols);
      var table := Rows(flat, rows, cols);
      assert table[1..] == Rows(flat[cols..], rows - 1, cols);
      FlattenRows(flat[cols..], rows - 1, cols);
      assert flat[..cols] + flat[cols..] == flat;
    }
  }

  /** `fluxdensity.reshape(rows, cols)`: refused unless the sizes agree. */
  function Reshape(flat: seq<real>, rows: nat, cols: nat): (r: Result<seq<seq<real>>, AfterglowError>)
    ensures r.Success? <==> |flat| == rows * cols
    ensures r.Failure? ==> r.error == ValueError
    ensures r.Success? ==> |r.value| == rows && Flatten(r.value) == flat
    ensures r.Success? ==> forall i :: 0 <= i < rows ==> |r.value[i]| == cols
    ensures r.Success? ==> r.value == Rows(flat, rows, cols)
  {
    if |flat| == rows * cols then
      FlattenRows(flat, rows, cols);
      Success(Rows(flat, rows, cols))
    else Failure(ValueError)
  }

  /** The scale factor `1e-26` of the integrated light curve. */
  const Prefactor: real := 0.00000000000000000000000001

  /** Column `j` of the table, scaled by the prefactor. */
  function ScaledColumn(table: seq<seq<real>>, j: nat): (col: seq<real>)
    requires forall i :: 0 <= i < |table| ==> j < |table[i]|
    ensures |col| == |table|
    ensures forall i :: 0 <= i < |table| ==> col[i] == Prefactor * table[i][j]
  {
    seq(|table|, i requires 0 <= i < |table| => Prefactor * table[i][j])
  }

  /** Column `j` of the three-row reshaped solver output, scaled: one entry from each frequency. */
  lemma ScaledColumnOfRows(flux: seq<real>, n: nat, j: nat)
    requires |flux| == 3 * n && j < n
    ensures ScaledColumn(Rows(flux, 3, n), j) == [Prefactor * flux[j], Prefactor * flux[n + j], Prefactor * flux[2 * n + j]]
  {
    RowsIndex(flux, 3, n, 0, j);
    RowsIndex(flux, 3, n, 1, j);
    RowsIndex(flux, 3, n, 2, j);
  }

  /** `simps(table, axis=0, x=nu1d)` of the scaled table: one integral per column. */
  function IntegrateColumns(b: Backend, table: seq<seq<real>>, nu1d: seq<real>, n: nat): (lc: seq<real>)
    requires forall i :: 0 <= i < |table| ==> |table[i]| == n
    ensures |lc| == n
    ensures forall j :: 0 <= j < n ==> lc[j] == b.simpson(ScaledColumn(table, j), nu1d)
  {
    seq(n, j requires 0 <= j < n => b.simpson(ScaledColumn(table, j), nu1d))
  }

  /**
   * `lc` holds one value per time, and value `j` is Simpson's rule over `nu1d` of
   * the scaled entries `j`, `n + j` and `2n + j` of the solver output: time `j`
   * at each of the three frequencies.
   */
  predicate BandIntegral(b: Backend, flux: seq<real>, n: nat, nu1d: seq<real>, lc: seq<real>)
    requires |flux| == 3 * n
  {
    |lc| == n && forall j :: 0 <= j < n ==>
      lc[j] == b.simpson([Prefactor * flux[j], Prefactor * flux[n + j], Prefactor * flux[2 * n + j]], nu1d)
  }

  /**
   * The integration over frequency: the solver output folded back into three
   * rows, scaled, and each time's column integrated over `nu1d`.
   */
  function IntegrateOverFrequency(b: Backend, time: seq<real>, nu1d: seq<real>, flux: seq<real>)
    : (r: Result<seq<real>, AfterglowError>)
    requires |nu1d| == 3
    ensures r.Success? <==> |flux| == 3 * |time|
    ensures r.Failure? ==> r.error == ValueError
    ensures r.Success? ==> BandIntegral(b, flux, |time|, nu1d, r.value)
  {
    var reshaped := Reshape(flux, 3, |time|);
    if reshaped.Failure? then Failure(reshaped.error)
    else
      var n := |time|;
      var table := Rows(flux, 3, n);
      assert reshaped.value == table;
      var lightcurve := IntegrateColumns(b, table, nu1d, n);
      forall j | 0 <= j < n
        ensures lightcurve[j] == b.simpson([Prefactor * flux[j], Prefactor * flux[n + j],
                                            Prefactor * flux[2 * n + j]], nu1d)
      {
        ScaledColumnOfRows(flux, n, j);
      }
      Success(lightcurve)
  }

  /** The solver call on the flattened grid of `time` by `nu1d`. */
  function GridCall(time: seq<real>, nu1d: seq<real>, config: Config): (call: SolverCall)
    ensures call.config == config && call.frequency.KwReals?
    ensures |call.time| == |nu1d| * |time| == |call.frequency.xs|
  {
    FlatLengths(time, nu1d);
    SolverCall(FlatTimes(time, |nu1d|), KwReals(FlatFreqs(nu1d, |time|)), config)
  }

  /** The grid call pairs entry `i * |time| + j` with the `i`-th frequency and the `j`-th time. */
  lemma GridCallIndex(time: seq<real>, nu1d: seq<real>, config: Config, i: nat, j: nat)
    requires i < |nu1d| && j < |time|
    ensures var call := GridCall(time, nu1d, config);
      && i * |time| + j < |call.time|
      && call.time[i * |time| + j] == time[j]
      && call.frequency.xs[i * |time| + j] == nu1d[i]
  {
    FlatGridIndex(time, nu1d, i, j);
  }

  /** The solver call `tophat_integrated` makes, and the three frequencies it integrates over. */
  function TopHatIntegratedCall(b: Backend, time: seq<real>, redshift: real, thv: real, loge0: real, thc: real,
                                m: Medium, kwargs: map<string, KwValue>)
    : (r: Result<(SolverCall, seq<real>), AfterglowError>)
    ensures SettingsError(b, kwargs).Some? ==> r == Failure(SettingsError(b, kwargs).value)
    ensures SettingsError(b, kwargs).None? ==> (r.Success? <==> FrequencyBounds(kwargs["frequency"]).Success?)
    ensures r.Success? ==>
      && r.value.1 == LinSpace3(kwargs["frequency"].xs[0], kwargs["frequency"].xs[1])
      && r.value.0 == GridCall(time, r.value.1, TopHatAfterglow(b, time, redshift, thv, loge0, thc, m, kwargs).value.config)
  {
    var s :- ReadSettings(b, kwargs, "tophat");
    var bounds :- FrequencyBounds(s.frequency);
    var config := ModelConfig(b, s, redshift, m, JetShape(b.ops, thv, loge0, thc, None, None));
    var nu1d := LinSpace3(bounds.0, bounds.1);
    Success((GridCall(time, nu1d, config), nu1d))
  }

  /** `tophat_integrated`: the top-hat flux density integrated over a band of three frequencies. */
  function TopHatIntegrated(b: Backend, time: seq<real>, redshift: real, thv: real, loge0: real, thc: real,
                            m: Medium, kwargs: map<string, KwValue>): (r: Result<seq<real>, AfterglowError>)
    ensures SettingsError(b, kwargs).Some? ==> r == Failure(SettingsError(b, kwargs).value)
    ensures TopHatIntegratedCall(b, time, redshift, thv, loge0, thc, m, kwargs).Failure? ==>
      r == Failure(TopHatIntegratedCall(b, time, redshift, thv, loge0, thc, m, kwargs).error)
    ensures TopHatIntegratedCall(b, time, redshift, thv, loge0, thc, m, kwargs).Success? ==>
      var call := TopHatIntegratedCall(b, time, redshift, thv, loge0, thc, m, kwargs).value.0;
      var nu1d := TopHatIntegratedCall(b, time, redshift, thv, loge0, thc, m, kwargs).value.1;
      var flux := b.fluxDensity(call.time, call.frequency, call.config);
      && (r.Success? <==> |flux| == 3 * |time|)
      && (r.Failure? ==> r.error == ValueError)
      && (r.Success? ==> BandIntegral(b, flux, |time|, nu1d, r.value))
  {
    var (call, nu1d) :- TopHatIntegratedCall(b, time, redshift, thv, loge0, thc, m, kwargs);
    IntegrateOverFrequency(b, time, nu1d, b.fluxDensity(call.time, call.frequency, call.config))
  }

  /**
   * A solver that evaluates each (time, frequency) pair on its own, as the jet
   * solver does for two arrays of equal length: `point` is the flux density at
   * one pair.
   */
  ghost predicate PointwiseSolver(b: Backend, point: (real, real, Config) -> real) {
    forall t: seq<real>, nu: seq<real>, c: Config :: |t| == |nu| ==>
      PointwiseOutput(b.fluxDensity(t, KwReals(nu), c), t, nu, c, point)
  }

  /** `flux` holds the flux density at each (time, frequency) pair in turn. */
  ghost predicate PointwiseOutput(flux: seq<real>, t: seq<real>, nu: seq<real>, c: Config,
                                  point: (real, real, Config) -> real)
    requires |t| == |nu|
  {
    |flux| == |t| && forall k :: 0 <= k < |t| ==> flux[k] == point(t[k], nu[k], c)
  }

  /**
   * A pointwise solver on the three-frequency grid: entries `j`, `n + j` and
   * `2n + j` are the flux density at `time[j]` and each frequency in turn.
   */
  lemma PointwiseColumn(b: Backend, point: (real, real, Config) -> real, time: seq<real>, nu1d: seq<real>,
                        config: Config, j: nat)
    requires PointwiseSolver(b, point)
    requires |nu1d| == 3 && j < |time|
    ensures var call := GridCall(time, nu1d, config);
      var flux := b.fluxDensity(call.time, call.frequency, call.config);
      var n := |time|;
      && |flux| == 3 * n
      && flux[j] == point(time[j], nu1d[0], config)
      && flux[n + j] == point(time[j], nu1d[1], config)
      && flux[2 * n + j] == point(time[j], nu1d[2], config)
  {
    var call := GridCall(time, nu1d, config);
    assert call.frequency == KwReals(call.frequency.xs);
    var flux := b.fluxDensity(call.time, call.frequency, call.config);
    assert PointwiseOutput(flux, call.time, call.frequency.xs, config, point);
    ColumnOfOutput(flux, time, nu1d, config, point, j);
  }

  lemma ColumnOfOutput(flux: seq<real>, time: seq<real>, nu1d: seq<real>, config: Config,
                       point: (real, real, Config) -> real, j: nat)
    requires |nu1d| == 3 && j < |time|
    requires var call := GridCall(time, nu1d, config);
      PointwiseOutput(flux, call.time, call.frequency.xs, config, point)
    ensures var n := |time|;
      && |flux| == 3 * n
      && flux[j] == point(time[j], nu1d[0], config)
      && flux[n + j] == point(time[j], nu1d[1], config)
      && flux[2 * n + j] == point(time[j], nu1d[2], config)
  {
    var n := |time|;
    GridCallIndex(time, nu1d, config, 0, j);
    GridCallIndex(time, nu1d, config, 1, j);
    GridCallIndex(time, nu1d, config, 2, j);
    assert 0 * n + j == j && 1 * n + j == n + j;
  }

  /**
   * End to end, with a pointwise solver: value `j` of `tophat_integrated` is
   * Simpson's rule, over the three band frequencies, of the scaled top-hat flux
   * density at time `j` and each of those frequencies.
   */
  lemma TopHatIntegratedPointwise(b: Backend, point: (real, real, Config) -> real, time: seq<real>, redshift: real,
                                  thv: real, loge0: real, thc: real, m: Medium, kwargs: map<string, KwValue>,
                                  lo: real, hi: real, j: nat)
    requires PointwiseSolver(b, point)
    requires SettingsError(b, kwargs).None?
    requires "frequency" in kwargs && FrequencyBounds(kwargs["frequency"]) == Success((lo, hi))
    requires j < |time|
    ensures var r := TopHatIntegrated(b, time, redshift, thv, loge0, thc, m, kwargs);
      var nu1d := LinSpace3(lo, hi);
      var c := TopHatAfterglow(b, time, redshift, thv, loge0, thc, m, kwargs).value.config;
      && r.Success? && |r.value| == |time|
      && r.value[j] == b.simpson([Prefactor * point(time[j], nu1d[0], c), Prefactor * point(time[j], nu1d[1], c),
                                  Prefactor * point(time[j], nu1d[2], c)], nu1d)
  {
    var nu1d := LinSpace3(lo, hi);
    var c := TopHatAfterglow(b, time, redshift, thv, loge0, thc, m, kwargs).value.config;
    TopHatIntegratedBand(b, point, time, redshift, thv, loge0, thc, m, kwargs, lo, hi);
    var r := TopHatIntegrated(b, time, redshift, thv, loge0, thc, m, kwargs);
    BandIntegralPointwise(b, point, time, nu1d, c, r, j);
  }

  /**
   * With valid settings and frequency bounds, and a solver that returns one value
   * per grid point, the integrated light curve is the band integral of the grid run.
   */
  lemma TopHatIntegratedBand(b: Backend, point: (real, real, Config) -> real, time: seq<real>, redshift: real,
                             thv: real, loge0: real, thc: real, m: Medium, kwargs: map<string, KwValue>,
                             lo: real, hi: real)
    requires PointwiseSolver(b, point)
    requires SettingsError(b, kwargs).None?
    requires "frequency" in kwargs && FrequencyBounds(kwargs["frequency"]) == Success((lo, hi))
    ensures var r := TopHatIntegrated(b, time, redshift, thv, loge0, thc, m, kwargs);
      var nu1d := LinSpace3(lo, hi);
      var c := TopHatAfterglow(b, time, redshift, thv, loge0, thc, m, kwargs).value.config;
      var call := GridCall(time, nu1d, c);
      && r.Success?
      && BandIntegral(b, b.fluxDensity(call.time, call.frequency, call.config), |time|, nu1d, r.value)
  {
    var nu1d := LinSpace3(lo, hi);
    var c := TopHatAfterglow(b, time, redshift, thv, loge0, thc, m, kwargs).value.config;
    var call := GridCall(time, nu1d, c);
    assert TopHatIntegratedCall(b, time, redshift, thv, loge0, thc, m, kwargs).value == (call, nu1d);
    assert call.frequency == KwReals(call.frequency.xs);
    var flux := b.fluxDensity(call.time, call.frequency, call.config);
    var r := TopHatIntegrated(b, time, redshift, thv, loge0, thc, m, kwargs);
    assert r.Success? && BandIntegral(b, flux, |time|, nu1d, r.value);
  }

  /** A band integral over the grid output of a pointwise solver, at time `j`. */
  lemma BandIntegralPointwise(b: Backend, point: (real, real, Config) -> real, time: seq<real>, nu1d: seq<real>,
                              c: Config, r: Result<seq<real>, AfterglowError>, j: nat)
    requires PointwiseSolver(b, point)
    requires |nu1d| == 3 && j < |time|
    requires r.Success?
    requires var call := GridCall(time, nu1d, c);
      BandIntegral(b, b.fluxDensity(call.time, call.frequency, call.config), |time|, nu1d, r.value)
    ensures r.Success? && |r.value| == |time|
    ensures r.value[j] == b.simpson([Prefactor * point(time[j], nu1d[0], c), Prefactor * point(time[j], nu1d[1], c),
                                     Prefactor * point(time[j], nu1d[2], c)], nu1d)
  {
    var lc := r.value;
    var n := |time|;
    var call := GridCall(time, nu1d, c);
    var flux := b.fluxDensity(call.time, call.frequency, call.config);
    PointwiseColumn(b, point, time, nu1d, c, j);
    var column := [Prefactor * flux[j], Prefactor * flux[n + j], Prefactor * flux[2 * n + j]];
    assert lc[j] == b.simpson(column, nu1d);
    assert column == [Prefactor * point(time[j], nu1d[0], c), Prefactor * point(time[j], nu1d[1], c),
                      Prefactor * point(time[j], nu1d[2], c)];
  }
}

=== FILE: analysis.dfy ===
/**
 * Result lookup in grb_bilby's analysis helpers: where a fit's result file is
 * expected, how it is read back, and the log Bayes factor of two models as the
 * difference of their stored log evidences. The file system is a value: the
 * directories that exist and the log evidence held by each result file.
 */
module Analysis {
  import opened Wrappers
  import opened PyValues
  import Sampler

  /** The directories that exist, and the log evidence recorded in each result file. */
  datatype Store = Store(dirs: set<string>, evidence: map<string, real>)

  /** The data a read hands back: what `load_data` was asked to load. */
  datatype GrbData = GrbData(grb: string, dataDir: string, truncate: KwValue)

  datatype AnalysisError = ResultNotFound(file: string)

  predicate EndsWith(s: string, suffix: string) {
    |suffix| <= |s| && s[|s| - |suffix|..] == suffix
  }

  /** POSIX `os.path.join(a, b)`. */
  function Join(a: string, b: string): (p: string)
    ensures EndsWith(p, b)
    ensures StartsWith(b, "/") ==> p == b
    ensures !StartsWith(b, "/") ==> StartsWith(p, a)
    ensures !StartsWith(b, "/") && (a == [] || a[|a| - 1] == '/') ==> p == a + b
    ensures !StartsWith(b, "/") && a != [] && a[|a| - 1] != '/' ==> p == a + "/" + b
  {
    if StartsWith(b, "/") then b
    else
      var p := if a == [] || a[|a| - 1] == '/' then a + b else a + "/" + b;
      assert p[|p| - |b|..] == b;
      assert p[..|a|] == a;
      p
  }

  /** `find_path`: "default" means the data directory shipped next to the package. */
  function FindPath(packageDir: string, path: string): (dataDir: string)
    ensures path != "default" ==> dataDir == path
    ensures path == "default" ==> StartsWith(dataDir, packageDir) && EndsWith(dataDir, "../data/GRBData")
    ensures path == "default" ==> dataDir == Join(packageDir, "../data/GRBData")
  {
    if path == "default" then
      assert !StartsWith("../data/GRBData", "/") by {
        assert "../data/GRBData"[..1] == ".";
      }
      Join(packageDir, "../data/GRBData")
    else path
  }

  /** Resolving a path twice gives the same directory: the shipped data directory is never "default". */
  lemma FindPathIdempotent(packageDir: string, path: string)
    ensures FindPath(packageDir, FindPath(packageDir, path)) == FindPath(packageDir, path)
  {
    if path == "default" {
      var dataDir := FindPath(packageDir, path);
      assert |dataDir| >= |"../data/GRBData"|;
      assert dataDir != "default";
    }
  }

  /** The directory holding a model's results for one GRB. */
  function ResultDirectory(path: string, grb: string, model: string): (dir: string)
    ensures StartsWith(dir, path + "/GRB" + grb + "/")
    ensures EndsWith(dir, model + "/")
    ensures dir == path + "/GRB" + grb + "/" + model + "/"
  {
    var prefix := path + "/GRB" + grb + "/";
    var dir := prefix + model + "/";
    assert dir[..|prefix|] == prefix;
    assert dir[|dir| - |model + "/"|..] == model + "/";
    dir
  }

  /** Under one path and GRB, two models share a result directory only if they are the same model. */
  lemma ResultDirectoryInjective(path: string, grb: string, m1: string, m2: string)
    ensures ResultDirectory(path, grb, m1) == ResultDirectory(path, grb, m2) <==> m1 == m2
  {
    var prefix := path + "/GRB" + grb + "/";
    if ResultDirectory(path, grb, m1) == ResultDirectory(path, grb, m2) {
      var d := ResultDirectory(path, grb, m1);
      assert |m1| == |m2|;
      assert m1 == d[|prefix|..|prefix| + |m1|];
      assert m2 == d[|prefix|..|prefix| + |m2|];
    }
  }

  /** The result file name: the photon-index one only when the flag compares equal to True. */
  function ResultFilename(usePhotonIndexPrior: KwValue): (file: string)
    ensures EqualsTrue(usePhotonIndexPrior) ==> file == "photon_index_result.json"
    ensures !EqualsTrue(usePhotonIndexPrior) ==> file == "result_result.json"
  {
    if EqualsTrue(usePhotonIndexPrior) then "photon_index_result.json" else "result_result.json"
  }

  /** A truthy flag that is not equal to True still selects the plain result file. */
  lemma TruthyFlagIsNotTrue()
    ensures ResultFilename(KwStr("yes")) == "result_result.json"
    ensures ResultFilename(KwInt(2)) == "result_result.json"
    ensures ResultFilename(KwInt(1)) == "photon_index_result.json"
  {
  }

  /**
   * `read_result`: create the result directory if needed, read the log evidence
   * from the result file, then load the GRB's data. Returns the store after the
   * directory is made, whether or not the read succeeds.
   */
  function ReadResult(packageDir: string, store: Store, model: string, grb: string, path: string,
                      truncate: KwValue, usePhotonIndexPrior: KwValue)
    : (r: (Result<(real, GrbData), AnalysisError>, Store))
    ensures var dir := ResultDirectory(path, grb, model);
      && r.1 == Store(store.dirs + {dir}, store.evidence)
      && var file := dir + ResultFilename(usePhotonIndexPrior);
      && (r.0.Success? <==> file in store.evidence)
      && (r.0.Failure? ==> r.0.error == ResultNotFound(file))
      && (r.0.Success? ==> r.0.value.0 == store.evidence[file])
      && (r.0.Success? ==> r.0.value.1 == GrbData(grb, FindPath(packageDir, path), truncate))
  {
    var dir := ResultDirectory(path, grb, model);
    var made := Store(store.dirs + {dir}, store.evidence);
    var file := dir + ResultFilename(usePhotonIndexPrior);
    if file in store.evidence then
      (Success((store.evidence[file], GrbData(grb, FindPath(packageDir, path), truncate))), made)
    else
      (Failure(ResultNotFound(file)), made)
  }

  /** The file `read_result` reads for a model. */
  function ResultFile(path: string, grb: string, model: string, usePhotonIndexPrior: KwValue): string {
    ResultDirectory(path, grb, model) + ResultFilename(usePhotonIndexPrior)
  }

  /** `calculate_BF`: log evidence of the first model minus that of the second, both read with the same flag. */
  function CalculateBF(packageDir: string, store: Store, model1: string, model2: string, grb: string, path: string,
                       usePhotonIndexPrior: KwValue)
    : (r: (Result<real, AnalysisError>, Store))
    ensures var f1 := ResultFile(path, grb, model1, usePhotonIndexPrior);
      var f2 := ResultFile(path, grb, model2, usePhotonIndexPrior);
      && (r.0.Success? <==> f1 in store.evidence && f2 in store.evidence)
      && (f1 !in store.evidence ==> r.0 == Failure(ResultNotFound(f1)))
      && (f1 in store.evidence && f2 !in store.evidence ==> r.0 == Failure(ResultNotFound(f2)))
      && (r.0.Success? ==> r.0.value == store.evidence[f1] - store.evidence[f2])
      && r.1.evidence == store.evidence
  {
    var (first, afterFirst) := ReadResult(packageDir, store, model1, grb, path, KwBool(true), usePhotonIndexPrior);
    if first.Failure? then (Failure(first.error), afterFirst)
    else
      var (second, afterSecond) := ReadResult(packageDir, afterFirst, model2, grb, path, KwBool(true),
                                              usePhotonIndexPrior);
      if second.Failure? then (Failure(second.error), afterSecond)
      else (Success(first.value.0 - second.value.0), afterSecond)
  }

  /** A model compared with itself has log Bayes factor zero. */
  lemma BayesFactorSelf(packageDir: string, store: Store, model: string, grb: string, path: string, flag: KwValue)
    ensures var r := CalculateBF(packageDir, store, model, model, grb, path, flag).0;
      r.Success? ==> r.value == 0.0
  {
  }

  /** Swapping the models negates the log Bayes factor, and both orders succeed together. */
  lemma BayesFactorAntisymmetric(packageDir: string, store: Store, a: string, b: string, grb: string, path: string,
                                 flag: KwValue)
    ensures var ab := CalculateBF(packageDir, store, a, b, grb, path, flag).0;
      var ba := CalculateBF(packageDir, store, b, a, grb, path, flag).0;
      && (ab.Success? <==> ba.Success?)
      && (ab.Success? ==> ab.value == -ba.value)
  {
  }

  /** Both result directories exist after a comparison in which the first read succeeds. */
  lemma BayesFactorMakesDirectories(packageDir: string, store: Store, a: string, b: string, grb: string,
                                    path: string, flag: KwValue)
    ensures ResultDirectory(path, grb, a) in CalculateBF(packageDir, store, a, b, grb, path, flag).1.dirs
    ensures ResultFile(path, grb, a, flag) in store.evidence ==>
      ResultDirectory(path, grb, b) in CalculateBF(packageDir, store, a, b, grb, path, flag).1.dirs
  {
  }

  /** The sampler writes a GRB fit into the directory `read_result` looks in. */
  lemma SamplerOutdirIsResultDirectory(outdir: string, name: string, model: Sampler.ModelFunction)
    ensures Sampler.GrbOutdir(outdir, name, model) + "/" == ResultDirectory(outdir, name, model.name)
  {
  }

  /**
   * A sampler run labelled `data_mode[_photon_index]` writes `<label>_result.json`;
   * that name is the one `read_result` expects only for the plain data mode "result".
   */
  lemma LabelMatchesResultFilename(dataMode: string, usePhotonIndexPrior: bool)
    ensures Sampler.Label(dataMode, usePhotonIndexPrior) + "_result.json" == ResultFilename(KwBool(usePhotonIndexPrior))
            <==> !usePhotonIndexPrior && dataMode == "result"
  {
    var lbl := Sampler.Label(dataMode, usePhotonIndexPrior);
    if usePhotonIndexPrior {
      assert |lbl + "_result.json"| == |dataMode| + 25;
      assert |ResultFilename(KwBool(true))| == 24;
    } else {
      if lbl + "_result.json" == "result_result.json" {
        assert lbl == (lbl + "_result.json")[..|lbl|];
        assert |lbl| == 6;
      }
    }
  }
}

=== FILE: ejecta_relations.dfy ===
/**
 * Closed-form fits from gravitational-wave binary parameters to kilonova ejecta
 * properties: the one-component BNS relations of Dietrich and Ujevic (2017), with
 * and without projection, and the NSBH relation of Kawaguchi et al. (2016).
 *
 * Every relation is a pure function of its inputs. The source computes over
 * floats; the model computes over reals, with the transcendental functions
 * abstract (`RealFunctions`). Where the source divides by zero (Python raises,
 * numpy yields inf or nan) the model has no real value and reports
 * `DivisionByZero`.
 */
module EjectaRelations {
  import opened Wrappers
  import opened RealFunctions

  datatype EjectaError = DivisionByZero

  /** The attributes a one-component BNS relation computes at construction. */
  datatype BnsEjecta = BnsEjecta(
    c1: real, c2: real,        // compactness of each star
    vrho: real, vz: real,      // in-plane and out-of-plane ejecta velocity
    ejectaMass: real,          // solar masses
    ejectaVelocity: real,      // units of c
    qej: real,                 // polar opening angle
    phej: real)                // azimuthal opening angle

  /** The attributes the NSBH relation computes at construction. */
  datatype NsbhEjecta = NsbhEjecta(
    massRatio: real,           // mass_bh / mass_ns
    risco: real,               // innermost stable circular orbit radius
    ejectaVelocity: real,
    ejectaMass: real)

  /** G, c and the solar mass in SI units; astropy supplies them in the source. */
  datatype PhysicalConstants = PhysicalConstants(g: real, c: real, solarMass: real)

  /** np.maximum on scalars. */
  function Max(a: real, b: real): (m: real)
    ensures m >= a && m >= b && (m == a || m == b)
  {
    if a >= b then a else b
  }

  /** np.sign. */
  function Sign(x: real): (s: real)
    ensures x > 0.0 ==> s == 1.0
    ensures x < 0.0 ==> s == -1.0
    ensures x == 0.0 ==> s == 0.0
  {
    if x > 0.0 then 1.0 else if x < 0.0 then -1.0 else 0.0
  }

  // ---------------------------------------------------------------------------
  // Shared helpers
  // ---------------------------------------------------------------------------

  /** The compactness fit is a quadratic in ln(lambda) with negative discriminant. */
  lemma CompactnessFitPositive(l: real)
    ensures 0.371 - 0.0391 * l + 0.001056 * l * l > 0.0
  {
    var h := 9775.0 / 528.0;
    assert 0.371 - 0.0391 * l + 0.001056 * l * l
        == 0.001056 * ((l - h) * (l - h)) + 3829.4 / 422400.0;
    assert (l - h) * (l - h) >= 0.0;
  }

  /** Compactness from the dimensionless tidal deformability Λ. */
  function CompactnessFromLambda(ops: RealOps, tidal: real): (c: real)
    ensures c > 0.0
    ensures ops.ln(tidal) == 0.0 ==> c == 0.371
  {
    var l := ops.ln(tidal);
    CompactnessFitPositive(l);
    0.371 - 0.0391 * l + 0.001056 * l * l
  }

  /** Compactness G M / (c^2 R) from a mass in solar masses and a radius in metres. */
  function Compactness(k: PhysicalConstants, mass: real, radius: real): (r: Result<real, EjectaError>)
    ensures r.Success? <==> k.c != 0.0 && radius != 0.0
    ensures r.Success? && k.g > 0.0 && k.solarMass > 0.0 && mass > 0.0 && radius > 0.0
            ==> r.value > 0.0
  {
    if k.c == 0.0 || radius == 0.0 then Failure(DivisionByZero)
    else
      assert k.c * k.c > 0.0;
      assert k.c * k.c * radius != 0.0;
      Success(k.g * (mass * k.solarMass) / (k.c * k.c * radius))
  }

  /** For a positive mass, the larger of two stars is the less compact one. */
  lemma CompactnessDecreasesWithRadius(k: PhysicalConstants, mass: real, r1: real, r2: real)
    requires k.g > 0.0 && k.solarMass > 0.0 && k.c != 0.0 && mass > 0.0
    requires 0.0 < r1 < r2
    ensures Compactness(k, mass, r2).value < Compactness(k, mass, r1).value
  {
    ProductOfPositives(mass, k.solarMass);
    ProductOfPositives(k.g, mass * k.solarMass);
    SquareScale(k.c, r1, r2);
    var num := k.g * (mass * k.solarMass);
    QuotientDecreases(num, k.c * k.c * r1, k.c * k.c * r2);
    assert Compactness(k, mass, r1).value == num / (k.c * k.c * r1);
    assert Compactness(k, mass, r2).value == num / (k.c * k.c * r2);
  }

  /** Multiplying by a positive factor keeps a strict order between positive reals. */
  lemma ScaleIncreases(s: real, a: real, b: real)
    requires s > 0.0 && 0.0 < a < b
    ensures 0.0 < s * a < s * b
  {
    ProductOfPositives(s, a);
    ProductOfPositives(s, b - a);
    assert s * b == s * a + s * (b - a);
  }

  /** Multiplying by the square of a non-zero real keeps a strict order between positive reals. */
  lemma SquareScale(c: real, a: real, b: real)
    requires c != 0.0 && 0.0 < a < b
    ensures 0.0 < c * c * a < c * c * b
  {
    var d := if c > 0.0 then c else -c;
    ScaleIncreases(d, a, b);
    ScaleIncreases(d, d * a, d * b);
    assert c * c * a == d * (d * a);
    assert c * c * b == d * (d * b);
  }

  lemma QuotientDecreases(num: real, d1: real, d2: real)
    requires num > 0.0 && 0.0 < d1 < d2
    ensures num / d2 < num / d1
  {
    var q1, q2 := num / d1, num / d2;
    assert q2 > 0.0;
    assert q1 * d1 == q2 * d2;
    assert q1 == q2 * (d2 / d1);
    assert d2 / d1 > 1.0;
  }

  /** The term mass_g^2 / R_1.4 the EOS-insensitive fit adds to the gravitational mass. */
  function EosCorrection(massG: real, radius14: real): (t: real)
    requires radius14 != 0.0
    ensures radius14 > 0.0 ==> t >= 0.0
  {
    massG * massG / radius14
  }

  /** Baryonic mass from the gravitational mass and the radius of a 1.4 solar-mass star. */
  function BaryonicMassEosInsensitive(massG: real, radius14: real): (r: Result<real, EjectaError>)
    ensures r.Success? <==> radius14 != 0.0
    ensures r.Success? && radius14 > 0.0 ==> r.value >= massG
  {
    if radius14 == 0.0 then Failure(DivisionByZero)
    else
      Success(massG + EosCorrection(massG, radius14))
  }

  /**
   * The correction term of the baryonic-mass fit is positive for a positive
   * compactness, so a positive mass strictly grows.
   */
  lemma BaryonicCorrectionPositive(ops: RealOps, mass: real, compactness: real)
    ensures Lawful(ops) && compactness > 0.0 ==>
      var correction := 0.8857853174243745 * ops.pow(compactness, 1.2082383572002926);
      && correction > 0.0
      && (mass >= 0.0 ==> mass * (1.0 + correction) >= mass)
      && (mass > 0.0 ==> mass * (1.0 + correction) > mass)
      && (mass * (1.0 + correction) == 0.0 <==> mass == 0.0)
  {
    if Lawful(ops) && compactness > 0.0 {
      var correction := 0.8857853174243745 * ops.pow(compactness, 1.2082383572002926);
      assert correction > 0.0;
      assert mass * (1.0 + correction) == mass + mass * correction;
    }
  }

  /** Baryonic mass from the gravitational mass and the compactness. */
  function BaryonicMass(ops: RealOps, mass: real, compactness: real): (mb: real)
    ensures Lawful(ops) && compactness > 0.0 && mass >= 0.0 ==> mb >= mass
    ensures Lawful(ops) && compactness > 0.0 ==> (mb == 0.0 <==> mass == 0.0)
  {
    BaryonicCorrectionPositive(ops, mass, compactness);
    mass * (1.0 + 0.8857853174243745 * ops.pow(compactness, 1.2082383572002926))
  }

  /** The common shape a [(m1/m2)(1 + c C1) + (m2/m1)(1 + c C2)] + b of the velocity fits. */
  function VelocityFit(a: real, b: real, c: real, m1: real, m2: real, c1: real, c2: real): (v: real)
    requires m1 != 0.0 && m2 != 0.0
    ensures m1 == m2 ==> v == (2.0 + c * (c1 + c2)) * a + b
  {
    ((m1 / m2) * (1.0 + c * c1) + (m2 / m1) * (1.0 + c * c2)) * a + b
  }

  /** Average ejecta velocity in the orbital plane. */
  function VRho(ops: RealOps, m1: real, m2: real, lambda1: real, lambda2: real): (v: real)
    requires m1 != 0.0 && m2 != 0.0
    ensures m1 == m2 ==> v > 0.0
  {
    VelocityFit(-0.219479, 0.444836, -2.67385, m1, m2,
                CompactnessFromLambda(ops, lambda1), CompactnessFromLambda(ops, lambda2))
  }

  /** Average ejecta velocity orthogonal to the orbital plane. */
  function VZ(ops: RealOps, m1: real, m2: real, lambda1: real, lambda2: real): (v: real)
    requires m1 != 0.0 && m2 != 0.0
    ensures m1 == m2 ==> v > 0.0
  {
    VelocityFit(-0.315585, 0.63808, -1.00757, m1, m2,
                CompactnessFromLambda(ops, lambda1), CompactnessFromLambda(ops, lambda2))
  }

  /** Exchanging the two stars leaves both velocity components unchanged. */
  lemma VelocityComponentsSymmetric(ops: RealOps, m1: real, m2: real, lambda1: real, lambda2: real)
    requires m1 != 0.0 && m2 != 0.0
    ensures VRho(ops, m1, m2, lambda1, lambda2) == VRho(ops, m2, m1, lambda2, lambda1)
    ensures VZ(ops, m1, m2, lambda1, lambda2) == VZ(ops, m2, m1, lambda2, lambda1)
  {
  }

  // ---------------------------------------------------------------------------
  // Opening angles, shared by both BNS relations
  // ---------------------------------------------------------------------------

  function QejTmp(ops: RealOps, vrho: real, vz: real): real
  {
    3.0 * vz + ops.sqrt(9.0 * ops.pow(vz, 2.0) + 4.0 * ops.pow(vrho, 2.0))
  }

  function QejDenominator(ops: RealOps, vrho: real, vz: real): real
  {
    ops.pow(ops.pow(vrho, 5.0) * QejTmp(ops, vrho, vz), 1.0 / 3.0)
  }

  function QejNumerator(ops: RealOps, vrho: real, vz: real): real
  {
    ops.pow(2.0, 4.0 / 3.0) * ops.pow(vrho, 2.0) + ops.pow(2.0 * ops.pow(vrho, 2.0) * QejTmp(ops, vrho, vz), 2.0 / 3.0)
  }

  /** Polar opening angle of the ejecta. */
  function PolarOpeningAngle(ops: RealOps, vrho: real, vz: real): (q: real)
    requires QejDenominator(ops, vrho, vz) != 0.0
    ensures Lawful(ops) && vrho > 0.0 && vz > 0.0 ==> q > 0.0
  {
    QejPositive(ops, vrho, vz);
    QejNumerator(ops, vrho, vz) / QejDenominator(ops, vrho, vz)
  }

  /** With both velocity components positive, the numerator and denominator of the polar angle are positive. */
  lemma QejPositive(ops: RealOps, vrho: real, vz: real)
    ensures Lawful(ops) && vrho > 0.0 && vz > 0.0 ==>
      && QejDenominator(ops, vrho, vz) > 0.0
      && QejNumerator(ops, vrho, vz) > 0.0
  {
    if Lawful(ops) && vrho > 0.0 && vz > 0.0 {
      var tmp := QejTmp(ops, vrho, vz);
      QejTmpPositive(ops, vrho, vz);
      var sq := ops.pow(vrho, 2.0);
      ProductOfPositives(2.0 * sq, tmp);
      ProductOfPositives(ops.pow(2.0, 4.0 / 3.0), sq);
      ProductOfPositives(ops.pow(vrho, 5.0), tmp);
    }
  }

  /** A product of two positive reals is positive. */
  lemma ProductOfPositives(a: real, b: real)
    requires a > 0.0 && b > 0.0
    ensures a * b > 0.0
  {
  }

  /** The shared term 3 vz + sqrt(9 vz^2 + 4 vrho^2) is positive for positive velocities. */
  lemma QejTmpPositive(ops: RealOps, vrho: real, vz: real)
    requires Lawful(ops) && vrho > 0.0 && vz > 0.0
    ensures QejTmp(ops, vrho, vz) > 0.0
  {
    assert ops.pow(vz, 2.0) > 0.0 && ops.pow(vrho, 2.0) > 0.0;
    assert ops.sqrt(9.0 * ops.pow(vz, 2.0) + 4.0 * ops.pow(vrho, 2.0)) >= 0.0;
  }

  /** An equal-mass binary is always defined and ejects into a positive polar opening angle. */
  lemma EqualMassOpeningAngle(ops: RealOps, m: real, lambda1: real, lambda2: real)
    requires Lawful(ops) && m != 0.0
    ensures BnsDefined(ops, m, m, lambda1, lambda2)
    ensures BnsNoProjection(ops, m, m, lambda1, lambda2).Success?
    ensures BnsNoProjection(ops, m, m, lambda1, lambda2).value.qej > 0.0
  {
    QejPositive(ops, VRho(ops, m, m, lambda1, lambda2), VZ(ops, m, m, lambda1, lambda2));
  }

  /** Azimuthal opening angle of the ejecta from the polar one. */
  function AzimuthalOpeningAngle(ops: RealOps, qej: real): (phej: real)
    ensures phej == 2.0 * ops.pi * qej
  {
    4.0 * qej * ops.pi / 2.0
  }

  /** The azimuthal opening angle is 2π times the polar one. */
  predicate AzimuthalFromPolar(ops: RealOps, e: BnsEjecta) {
    e.phej == 2.0 * ops.pi * e.qej
  }

  /** Assembles the attributes both BNS relations share, given the two fits they differ in. */
  function BnsRecord(ops: RealOps, c1: real, c2: real, vrho: real, vz: real,
                     ejectaMass: real, ejectaVelocity: real): (e: BnsEjecta)
    requires QejDenominator(ops, vrho, vz) != 0.0
    ensures e.c1 == c1 && e.c2 == c2 && e.vrho == vrho && e.vz == vz
    ensures e.ejectaMass == ejectaMass && e.ejectaVelocity == ejectaVelocity
    ensures e.qej == PolarOpeningAngle(ops, vrho, vz)
    ensures AzimuthalFromPolar(ops, e)
  {
    var qej := PolarOpeningAngle(ops, vrho, vz);
    BnsEjecta(c1, c2, vrho, vz, ejectaMass, ejectaVelocity, qej, AzimuthalOpeningAngle(ops, qej))
  }

  // ---------------------------------------------------------------------------
  // OneComponentBNSNoProjection
  // ---------------------------------------------------------------------------

  function NoProjectionVelocity(m1: real, m2: real, c1: real, c2: real): (v: real)
    requires m1 != 0.0 && m2 != 0.0
    ensures m1 == m2 && c1 > 0.0 && c2 > 0.0 ==> v > 0.0
  {
    VelocityFit(-0.3090, 0.657, -1.879, m1, m2, c1, c2)
  }

  /** The fit for log10 of the ejecta mass. */
  function NoProjectionLog10Mass(ops: RealOps, m1: real, m2: real, c1: real, c2: real): (lm: real)
    requires m1 != 0.0 && m2 != 0.0 && c1 != 0.0 && c2 != 0.0
    ensures Lawful(ops) && m1 == m2 ==>
      lm == -0.0719 * m1 * ((1.0 - 2.0 * c1) / c1 + (1.0 - 2.0 * c2) / c2) + 0.4232 * m1 - 2.42
  {
    assert m1 == m2 ==> m2 / m1 == 1.0 && m1 / m2 == 1.0;
    -0.0719 * (m1 * (1.0 - 2.0 * c1) / c1 + m2 * (1.0 - 2.0 * c2) / c2)
      + 0.2116 * (m1 * ops.pow(m2 / m1, -2.905) + m2 * ops.pow(m1 / m2, -2.905))
      + -2.42
  }

  /** The ejecta mass 10^log10_mej, positive under a lawful power of ten. */
  function NoProjectionMass(ops: RealOps, m1: real, m2: real, c1: real, c2: real): (mej: real)
    requires m1 != 0.0 && m2 != 0.0 && c1 != 0.0 && c2 != 0.0
    ensures Lawful(ops) ==> mej > 0.0
  {
    ops.pow10(NoProjectionLog10Mass(ops, m1, m2, c1, c2))
  }

  /** Whether a BNS relation has a real value at these inputs: no division by zero. */
  predicate BnsDefined(ops: RealOps, m1: real, m2: real, lambda1: real, lambda2: real)
  {
    && m1 != 0.0 && m2 != 0.0
    && QejDenominator(ops, VRho(ops, m1, m2, lambda1, lambda2), VZ(ops, m1, m2, lambda1, lambda2)) != 0.0
  }

  /** The attributes of OneComponentBNSNoProjection(mass_1, mass_2, lambda_1, lambda_2). */
  function BnsNoProjection(ops: RealOps, m1: real, m2: real, lambda1: real, lambda2: real)
    : (r: Result<BnsEjecta, EjectaError>)
    ensures r.Success? <==> BnsDefined(ops, m1, m2, lambda1, lambda2)
    ensures r.Success? ==> r.value.c1 > 0.0 && r.value.c2 > 0.0
    ensures r.Success? ==> AzimuthalFromPolar(ops, r.value)
    ensures r.Success? && Lawful(ops) ==> r.value.ejectaMass > 0.0
  {
    if !BnsDefined(ops, m1, m2, lambda1, lambda2) then Failure(DivisionByZero)
    else
      var c1 := CompactnessFromLambda(ops, lambda1);
      var c2 := CompactnessFromLambda(ops, lambda2);
      var mej := NoProjectionMass(ops, m1, m2, c1, c2);
      var e := BnsRecord(ops, c1, c2, VRho(ops, m1, m2, lambda1, lambda2), VZ(ops, m1, m2, lambda1, lambda2),
                         mej, NoProjectionVelocity(m1, m2, c1, c2));
      assert e.ejectaMass == mej;
      Success(e)
  }

  /**
   * Exchanging the two stars leaves the velocity and the log10 ejecta mass (hence
   * the ejecta mass) and both opening angles unchanged, and swaps the compactnesses.
   */
  lemma NoProjectionSymmetric(ops: RealOps, m1: real, m2: real, lambda1: real, lambda2: real)
    requires m1 != 0.0 && m2 != 0.0
    ensures NoProjectionVelocity(m1, m2, CompactnessFromLambda(ops, lambda1), CompactnessFromLambda(ops, lambda2))
         == NoProjectionVelocity(m2, m1, CompactnessFromLambda(ops, lambda2), CompactnessFromLambda(ops, lambda1))
    ensures NoProjectionLog10Mass(ops, m1, m2, CompactnessFromLambda(ops, lambda1), CompactnessFromLambda(ops, lambda2))
         == NoProjectionLog10Mass(ops, m2, m1, CompactnessFromLambda(ops, lambda2), CompactnessFromLambda(ops, lambda1))
    ensures BnsNoProjection(ops, m1, m2, lambda1, lambda2).Success?
        <==> BnsNoProjection(ops, m2, m1, lambda2, lambda1).Success?
    ensures BnsNoProjection(ops, m1, m2, lambda1, lambda2).Success? ==>
      var r, s := BnsNoProjection(ops, m1, m2, lambda1, lambda2).value,
                  BnsNoProjection(ops, m2, m1, lambda2, lambda1).value;
      && r.ejectaVelocity == s.ejectaVelocity && r.ejectaMass == s.ejectaMass
      && r.qej == s.qej && r.phej == s.phej
      && r.c1 == s.c2 && r.c2 == s.c1
  {
    VelocityComponentsSymmetric(ops, m1, m2, lambda1, lambda2);
  }

  // ---------------------------------------------------------------------------
  // OneComponentBNSProjection
  // ---------------------------------------------------------------------------

  /** Ejecta velocity as the quadrature sum of its two components. */
  function ProjectionVelocity(ops: RealOps, vrho: real, vz: real): (v: real)
    ensures Lawful(ops) ==> v >= 0.0
  {
    assert vrho * vrho + vz * vz >= 0.0;
    ops.sqrt(vrho * vrho + vz * vz)
  }

  /** Ejecta mass from the baryonic-mass-weighted fit, floored at zero, in solar masses. */
  function ProjectionMass(ops: RealOps, m1: real, m2: real, c1: real, c2: real): (mej: real)
    requires m1 != 0.0 && m2 != 0.0 && c1 != 0.0 && c2 != 0.0
    requires BaryonicMass(ops, m1, c1) != 0.0 && BaryonicMass(ops, m2, c2) != 0.0
    ensures mej >= 0.0
  {
    var mb1 := BaryonicMass(ops, m1, c1);
    var mb2 := BaryonicMass(ops, m2, c2);
    var tmp1 := (mb1 * ops.pow(m2 / m1, 1.0 / 3.0) * (1.0 - 2.0 * c1) / c1
                 + mb2 * ops.pow(m1 / m2, 1.0 / 3.0) * (1.0 - 2.0 * c2) / c2) * -1.35695;
    var tmp2 := (mb1 * ops.pow(m2 / m1, -2.5484) + mb2 * ops.pow(m1 / m2, -2.5484)) * 6.11252;
    var tmp3 := (mb1 * (1.0 - m1 / mb1) + mb2 * (1.0 - m2 / mb2)) * -49.43355;
    Max(tmp1 + tmp2 + tmp3 + 16.1144, 0.0) / 1000.0
  }

  /** Whether the projected relation has a real value: also the baryonic masses are non-zero. */
  predicate ProjectionDefined(ops: RealOps, m1: real, m2: real, lambda1: real, lambda2: real)
  {
    && BnsDefined(ops, m1, m2, lambda1, lambda2)
    && BaryonicMass(ops, m1, CompactnessFromLambda(ops, lambda1)) != 0.0
    && BaryonicMass(ops, m2, CompactnessFromLambda(ops, lambda2)) != 0.0
  }

  /** The attributes of OneComponentBNSProjection(mass_1, mass_2, lambda_1, lambda_2). */
  function BnsProjection(ops: RealOps, m1: real, m2: real, lambda1: real, lambda2: real)
    : (r: Result<BnsEjecta, EjectaError>)
    ensures r.Success? <==> ProjectionDefined(ops, m1, m2, lambda1, lambda2)
    ensures r.Success? ==> r.value.ejectaMass >= 0.0
    ensures r.Success? && Lawful(ops) ==> r.value.ejectaVelocity >= 0.0
    ensures r.Success? ==> AzimuthalFromPolar(ops, r.value)
  {
    if !ProjectionDefined(ops, m1, m2, lambda1, lambda2) then Failure(DivisionByZero)
    else
      var c1 := CompactnessFromLambda(ops, lambda1);
      var c2 := CompactnessFromLambda(ops, lambda2);
      var vrho := VRho(ops, m1, m2, lambda1, lambda2);
      var vz := VZ(ops, m1, m2, lambda1, lambda2);
      Success(BnsRecord(ops, c1, c2, vrho, vz,
                        ProjectionMass(ops, m1, m2, c1, c2),
                        ProjectionVelocity(ops, vrho, vz)))
  }

  /**
   * With a lawful math library the two BNS relations fail on exactly the same
   * inputs, and where they succeed they agree on the velocity components and
   * on both opening angles.
   */
  lemma BnsRelationsShareAngles(ops: RealOps, m1: real, m2: real, lambda1: real, lambda2: real)
    requires Lawful(ops)
    ensures BnsNoProjection(ops, m1, m2, lambda1, lambda2).Success?
        <==> BnsProjection(ops, m1, m2, lambda1, lambda2).Success?
    ensures BnsNoProjection(ops, m1, m2, lambda1, lambda2).Success? ==>
      var r, s := BnsNoProjection(ops, m1, m2, lambda1, lambda2).value,
                  BnsProjection(ops, m1, m2, lambda1, lambda2).value;
      r.vrho == s.vrho && r.vz == s.vz && r.qej == s.qej && r.phej == s.phej
  {
  }

  /** Exchanging the two stars leaves every output of the projected relation unchanged. */
  lemma ProjectionSymmetric(ops: RealOps, m1: real, m2: real, lambda1: real, lambda2: real)
    ensures BnsProjection(ops, m1, m2, lambda1, lambda2).Success?
        <==> BnsProjection(ops, m2, m1, lambda2, lambda1).Success?
    ensures BnsProjection(ops, m1, m2, lambda1, lambda2).Success? ==>
      var r, s := BnsProjection(ops, m1, m2, lambda1, lambda2).value,
                  BnsProjection(ops, m2, m1, lambda2, lambda1).value;
      && r.ejectaVelocity == s.ejectaVelocity && r.ejectaMass == s.ejectaMass
      && r.qej == s.qej && r.phej == s.phej
  {
    if m1 != 0.0 && m2 != 0.0 {
      VelocityComponentsSymmetric(ops, m1, m2, lambda1, lambda2);
    }
  }

  // ---------------------------------------------------------------------------
  // OneComponentNSBH
  // ---------------------------------------------------------------------------

  function IscoZ1(ops: RealOps, chi: real): real
  {
    1.0 + ops.pow(1.0 - chi * chi, 1.0 / 3.0)
          * (ops.pow(1.0 + chi, 1.0 / 3.0) + ops.pow(1.0 - chi, 1.0 / 3.0))
  }

  function IscoZ2Squared(ops: RealOps, chi: real): real
  {
    3.0 * (chi * chi) + IscoZ1(ops, chi) * IscoZ1(ops, chi)
  }

  function IscoZ2(ops: RealOps, chi: real): real
  {
    ops.sqrt(IscoZ2Squared(ops, chi))
  }

  function IscoRadicand(ops: RealOps, chi: real): real
  {
    (3.0 - IscoZ1(ops, chi)) * (3.0 + IscoZ1(ops, chi) + 2.0 * IscoZ2(ops, chi))
  }

  /**
   * Innermost stable circular orbit radius for spin chi (Bardeen, Press and
   * Teukolsky): six gravitational radii for a non-spinning black hole.
   */
  function IscoRadius(ops: RealOps, chi: real): (r: real)
    ensures Lawful(ops) && chi == 0.0 ==> r == 6.0
  {
    IscoSchwarzschild(ops);
    3.0 + IscoZ2(ops, chi) - Sign(chi) * ops.sqrt(IscoRadicand(ops, chi))
  }

  /** For a non-spinning black hole z1 = z2 = 3. */
  lemma IscoSchwarzschild(ops: RealOps)
    ensures Lawful(ops) ==> IscoZ1(ops, 0.0) == 3.0 && IscoZ2(ops, 0.0) == 3.0
  {
    if Lawful(ops) {
      assert ops.pow(1.0, 1.0 / 3.0) == 1.0;
      assert IscoZ1(ops, 0.0) == 3.0;
      assert IscoZ2Squared(ops, 0.0) == 9.0;
    }
  }

  /**
   * z1 and z2 do not depend on the sign of the spin, so the prograde and the
   * retrograde ISCO lie symmetrically about 3 + z2.
   */
  lemma IscoProgradeRetrograde(ops: RealOps, chi: real)
    ensures IscoZ1(ops, -chi) == IscoZ1(ops, chi)
    ensures IscoZ2(ops, -chi) == IscoZ2(ops, chi)
    ensures IscoRadius(ops, chi) + IscoRadius(ops, -chi) == 2.0 * (3.0 + IscoZ2(ops, chi))
  {
    assert (-chi) * (-chi) == chi * chi;
    assert 1.0 + -chi == 1.0 - chi && 1.0 - -chi == 1.0 + chi;
    assert IscoZ1(ops, -chi) == IscoZ1(ops, chi);
    assert IscoZ2Squared(ops, -chi) == IscoZ2Squared(ops, chi);
    assert IscoRadicand(ops, -chi) == IscoRadicand(ops, chi);
    assert Sign(-chi) == -Sign(chi);
  }

  /** Ejecta velocity, linear in the mass ratio. */
  function NsbhVelocity(massRatio: real): (v: real)
    ensures v - 0.19066667068621043 == 0.015333330951369120 * massRatio
    ensures massRatio >= 0.0 ==> v >= 0.19066667068621043
  {
    0.015333330951369120 * massRatio + 0.19066667068621043
  }

  /** Ejecta mass: the baryonic mass times the fit, the fit floored at zero. */
  function NsbhMass(ops: RealOps, massRatio: real, risco: real, massNs: real, c: real, mb: real): (mej: real)
    requires c != 0.0 && mb != 0.0
    ensures mb >= 0.0 ==> mej >= 0.0
  {
    var tmp1 := risco * ops.pow(massRatio, 1.352) * -0.002269;
    var tmp2 := ops.pow(massRatio, 0.2497) * (1.0 - 2.0 * c) * 0.04464 / c;
    var tmp3 := (1.0 - massNs / mb) * 2.431 + -0.4159;
    mb * Max(tmp1 + tmp2 + tmp3, 0.0)
  }

  /** The attributes of OneComponentNSBH(mass_bh, mass_ns, chi_eff, lambda_ns). */
  function Nsbh(ops: RealOps, massBh: real, massNs: real, chi: real, lambdaNs: real)
    : (r: Result<NsbhEjecta, EjectaError>)
    ensures Lawful(ops) ==> (r.Success? <==> massNs != 0.0)
    ensures massNs == 0.0 ==> r.Failure?
    ensures r.Success? ==> r.value.massRatio * massNs == massBh
    ensures r.Success? ==> r.value.ejectaVelocity == NsbhVelocity(r.value.massRatio)
    ensures r.Success? && Lawful(ops) && massNs > 0.0 ==> r.value.ejectaMass >= 0.0
    ensures r.Success? && Lawful(ops) && chi == 0.0 ==> r.value.risco == 6.0
  {
    var c := CompactnessFromLambda(ops, lambdaNs);
    var mb := BaryonicMass(ops, massNs, c);
    if massNs == 0.0 || mb == 0.0 then Failure(DivisionByZero)
    else
      var q := massBh / massNs;
      var risco := IscoRadius(ops, chi);
      Success(NsbhEjecta(q, risco, NsbhVelocity(q), NsbhMass(ops, q, risco, massNs, c, mb)))
  }
}

=== FILE: py_dict.dfy ===
/**
 * Python's insertion-ordered `dict`: assignment to an existing key keeps its
 * position and replaces its value, a new key goes to the end, and `update`
 * assigns the pairs of its argument one after another.
 */
module PyDict {
  import opened Wrappers

  /** The entries in insertion order. */
  type Dict<K, V> = seq<(K, V)>

  function Keys<K, V>(d: Dict<K, V>): (ks: seq<K>)
    ensures |ks| == |d|
    ensures forall i :: 0 <= i < |d| ==> ks[i] == d[i].0
  {
    seq(|d|, i requires 0 <= i < |d| => d[i].0)
  }

  predicate Distinct<K(==)>(ks: seq<K>) {
    forall i, j :: 0 <= i < j < |ks| ==> ks[i] != ks[j]
  }

  predicate UniqueKeys<K(==), V>(d: Dict<K, V>) {
    Distinct(Keys(d))
  }

  /** `d.get(k)`: the value stored under the first occurrence of `k`. */
  function Get<K(==), V>(d: Dict<K, V>, k: K): (r: Option<V>)
    ensures r.None? <==> k !in Keys(d)
    ensures r.Some? ==> (k, r.value) in d
  {
    if |d| == 0 then None
    else if d[0].0 == k then Some(d[0].1)
    else
      assert Keys(d) == [d[0].0] + Keys(d[1..]);
      Get(d[1..], k)
  }

  /** `d[k] = v`. */
  function Put<K(==), V>(d: Dict<K, V>, k: K, v: V): (r: Dict<K, V>)
    ensures k in Keys(d) ==> Keys(r) == Keys(d)
    ensures k !in Keys(d) ==> Keys(r) == Keys(d) + [k]
  {
    if |d| == 0 then [(k, v)]
    else
      KeysCons(d[0], d[1..]);
      assert [d[0]] + d[1..] == d;
      if d[0].0 == k then
        KeysCons((k, v), d[1..]);
        [(k, v)] + d[1..]
      else
        var rest := Put(d[1..], k, v);
        KeysCons(d[0], rest);
        [d[0]] + rest
  }

  lemma KeysCons<K, V>(first: (K, V), rest: Dict<K, V>)
    ensures Keys([first] + rest) == [first.0] + Keys(rest)
  {
  }

  /** Reading back after `d[k] = v` gives `v`; every other key reads as before. */
  lemma {:induction false} PutGet<K, V>(d: Dict<K, V>, k: K, v: V, other: K)
    ensures Get(Put(d, k, v), k) == Some(v)
    ensures other != k ==> Get(Put(d, k, v), other) == Get(d, other)
    decreases |d|
  {
    if |d| == 0 {
    } else if d[0].0 == k {
      assert Put(d, k, v) == [(k, v)] + d[1..];
      assert ([(k, v)] + d[1..])[1..] == d[1..];
    } else {
      var rest := Put(d[1..], k, v);
      assert Put(d, k, v) == [d[0]] + rest;
      assert ([d[0]] + rest)[1..] == rest;
      PutGet(d[1..], k, v, other);
    }
  }

  /** Assignment never introduces a duplicate key. */
  lemma PutUnique<K, V>(d: Dict<K, V>, k: K, v: V)
    requires UniqueKeys(d)
    ensures UniqueKeys(Put(d, k, v))
  {
  }

  /** `d.update(pairs)`: each pair assigned in turn, so a later pair overwrites an earlier one with the same key. */
  function Update<K(==,!new), V>(d: Dict<K, V>, pairs: seq<(K, V)>): (r: Dict<K, V>)
    ensures |Keys(d)| <= |Keys(r)| && Keys(r)[..|Keys(d)|] == Keys(d)
    ensures forall x :: x in Keys(r) <==> x in Keys(d) || x in Keys(pairs)
    decreases |pairs|
  {
    if |pairs| == 0 then d
    else
      var n := |pairs| - 1;
      var before := Update(d, pairs[..n]);
      assert Keys(pairs) == Keys(pairs[..n]) + [pairs[n].0];
      Put(before, pairs[n].0, pairs[n].1)
  }

  /** The value a key receives from a run of assignments: that of its last pair. */
  function LastValue<K(==), V>(pairs: seq<(K, V)>, k: K): Option<V>
    decreases |pairs|
  {
    if |pairs| == 0 then None
    else if pairs[|pairs| - 1].0 == k then Some(pairs[|pairs| - 1].1)
    else LastValue(pairs[..|pairs| - 1], k)
  }

  /** After `update`, a key assigned by the pairs holds its last value, and any other key is untouched. */
  lemma {:induction false} UpdateGet<K(!new), V>(d: Dict<K, V>, pairs: seq<(K, V)>, k: K)
    ensures LastValue(pairs, k).Some? ==> Get(Update(d, pairs), k) == LastValue(pairs, k)
    ensures LastValue(pairs, k).None? ==> Get(Update(d, pairs), k) == Get(d, k)
    decreases |pairs|
  {
    if |pairs| > 0 {
      var n := |pairs| - 1;
      UpdateGet(d, pairs[..n], k);
      PutGet(Update(d, pairs[..n]), pairs[n].0, pairs[n].1, k);
    }
  }

  /** `update` keeps the keys unique. */
  lemma {:induction false} UpdateUnique<K(!new), V>(d: Dict<K, V>, pairs: seq<(K, V)>)
    requires UniqueKeys(d)
    ensures UniqueKeys(Update(d, pairs))
    decreases |pairs|
  {
    if |pairs| > 0 {
      var n := |pairs| - 1;
      UpdateUnique(d, pairs[..n]);
      PutUnique(Update(d, pairs[..n]), pairs[n].0, pairs[n].1);
    }
  }

  /** `ks` followed by each key of `added` that has not been seen yet, in order of first occurrence. */
  function AppendNew<K(==)>(ks: seq<K>, added: seq<K>): seq<K>
    decreases |added|
  {
    if |added| == 0 then ks
    else
      var before := AppendNew(ks, added[..|added| - 1]);
      if added[|added| - 1] in before then before else before + [added[|added| - 1]]
  }

  lemma AppendNewSnoc<K>(ks: seq<K>, added: seq<K>, x: K)
    ensures x in AppendNew(ks, added) ==> AppendNew(ks, added + [x]) == AppendNew(ks, added)
    ensures x !in AppendNew(ks, added) ==> AppendNew(ks, added + [x]) == AppendNew(ks, added) + [x]
  {
    assert (added + [x])[..|added|] == added;
  }

  /** A key is listed exactly when it was there before or is added. */
  lemma {:induction false} AppendNewMembers<K>(ks: seq<K>, added: seq<K>, x: K)
    ensures x in AppendNew(ks, added) <==> x in ks || x in added
    decreases |added|
  {
    if |added| > 0 {
      var n := |added| - 1;
      AppendNewMembers(ks, added[..n], x);
      assert added == added[..n] + [added[n]];
    }
  }

  /** Dropping repeats from the added keys first changes nothing. */
  lemma {:induction false} AppendNewOnce<K>(ks: seq<K>, added: seq<K>)
    ensures AppendNew(ks, AppendNew([], added)) == AppendNew(ks, added)
    decreases |added|
  {
    if |added| > 0 {
      var n := |added| - 1;
      var front := added[..n];
      var x := added[n];
      assert added == front + [x];
      AppendNewOnce(ks, front);
      AppendNewMembers([], front, x);
      AppendNewMembers(ks, front, x);
      AppendNewSnoc([], front, x);
      AppendNewSnoc(ks, front, x);
      AppendNewSnoc(ks, AppendNew([], front), x);
    }
  }

  /** After `update` the old keys come first, then each new key in order of its first occurrence. */
  lemma {:induction false} UpdateKeys<K(!new), V>(d: Dict<K, V>, pairs: seq<(K, V)>)
    ensures Keys(Update(d, pairs)) == AppendNew(Keys(d), Keys(pairs))
    decreases |pairs|
  {
    if |pairs| > 0 {
      var n := |pairs| - 1;
      UpdateKeys(d, pairs[..n]);
      assert Keys(pairs) == Keys(pairs[..n]) + [pairs[n].0];
      AppendNewSnoc(Keys(d), Keys(pairs[..n]), pairs[n].0);
    }
  }

  /** A dictionary built from pairs: `dict(pairs)` or a comprehension over them. */
  function FromPairs<K(==,!new), V>(pairs: seq<(K, V)>): (r: Dict<K, V>)
    ensures UniqueKeys(r)
    ensures forall x :: x in Keys(r) <==> x in Keys(pairs)
    ensures Keys(r) == AppendNew([], Keys(pairs))
  {
    UpdateUnique([], pairs);
    UpdateKeys([], pairs);
    assert Keys<K, V>([]) == [];
    Update([], pairs)
  }
}

=== FILE: py_values.dfy ===
/**
 * The handful of Python values and string operations the fitting code relies
 * on: keyword-argument values, `str.lstrip` of one character and the ASCII part
 * of `str.lower`.
 */
module PyValues {

  /** A value passed through a keyword argument or stored in a metadata dictionary. */
  datatype KwValue =
    | KwNone
    | KwBool(b: bool)
    | KwInt(i: int)
    | KwReal(x: real)
    | KwStr(s: string)
    | KwReals(xs: seq<real>)

  /** Python's `value == True`: only True itself, the integer 1 and the float 1.0 compare equal. */
  predicate EqualsTrue(v: KwValue) {
    v == KwBool(true) || v == KwInt(1) || v == KwReal(1.0)
  }

  predicate StartsWith(s: string, prefix: string) {
    |prefix| <= |s| && s[..|prefix|] == prefix
  }

  /** `s.lstrip(c)`: the suffix of `s` left after removing every leading `c`. */
  function LStrip(s: string, c: char): (r: string)
    ensures |r| <= |s| && r == s[|s| - |r|..]
    ensures |r| == 0 || r[0] != c
    ensures forall i :: 0 <= i < |s| - |r| ==> s[i] == c
    decreases |s|
  {
    if |s| > 0 && s[0] == c then LStrip(s[1..], c) else s
  }

  /** Stripping twice removes nothing more than stripping once. */
  lemma LStripIdempotent(s: string, c: char)
    ensures LStrip(LStrip(s, c), c) == LStrip(s, c)
  {
  }

  /** A string without a leading `c` is left as it is. */
  lemma LStripKeepsClean(s: string, c: char)
    requires |s| == 0 || s[0] != c
    ensures LStrip(s, c) == s
  {
  }

  /** Stripping leading underscores never yields a name that starts with one. */
  lemma LStripUnderscoreClean(s: string)
    ensures !StartsWith(LStrip(s, '_'), "_")
  {
    var r := LStrip(s, '_');
    if |r| > 0 {
      assert r[..1] == [r[0]];
    }
  }

  function LowerChar(c: char): char {
    if 'A' <= c <= 'Z' then (c as int + 32) as char else c
  }

  /** `s.lower()` on the ASCII letters. */
  function Lower(s: string): (r: string)
    ensures |r| == |s|
    ensures forall i :: 0 <= i < |s| ==> r[i] == LowerChar(s[i])
  {
    seq(|s|, i requires 0 <= i < |s| => LowerChar(s[i]))
  }

  /** Lowering leaves no upper-case ASCII letter, and lowering again changes nothing. */
  lemma LowerNormalises(s: string)
    ensures forall i :: 0 <= i < |s| ==> !('A' <= Lower(s)[i] <= 'Z')
    ensures Lower(Lower(s)) == Lower(s)
  {
  }
}

=== FILE: real_functions.dfy ===
/**
 * The transcendental functions the ejecta relations and afterglow models use
 * (natural log, real powers, square root, powers of ten and pi), kept abstract.
 * They are values of a record so that every formula is stated for an arbitrary
 * math library; `Lawful` lists the only facts about them that the proofs use.
 */
module RealFunctions {

  datatype RealOps = RealOps(
    ln: real -> real,            // np.log
    pow: (real, real) -> real,   // x ** e for a non-integer exponent e
    sqrt: real -> real,          // np.sqrt, x ** 0.5, x ** (1 / 2.0)
    pow10: real -> real,         // 10 ** x
    pi: real)                    // np.pi

  /** The properties of the real functions that the proofs rely on. */
  ghost predicate Lawful(ops: RealOps)
  {
    && ops.ln(1.0) == 0.0
    && (forall x, e :: x > 0.0 ==> ops.pow(x, e) > 0.0)
    && (forall e :: ops.pow(1.0, e) == 1.0)
    && (forall x :: x >= 0.0 ==> ops.sqrt(x) >= 0.0)
    && ops.sqrt(9.0) == 3.0
    && (forall x :: ops.pow10(x) > 0.0)
    && 3.14 < ops.pi < 3.15
  }

  /** A crude but lawful stand-in, showing that the facts of `Lawful` are consistent. */
  function Witness(): RealOps
  {
    RealOps(
      x => if x == 1.0 then 0.0 else x,
      (x, e) => if x > 0.0 then x else 0.0,
      x => if x == 9.0 then 3.0 else if x >= 0.0 then x else 0.0,
      x => 1.0,
      3.1415)
  }

  lemma WitnessIsLawful()
    ensures Lawful(Witness())
  {
  }
}

=== FILE: sampler.dfy ===
/**
 * The fitting entry point of redback: `fit_model` resolves the model, loads or
 * takes the prior, and hands over to the fitter for the transient's kind, which
 * adjusts the prior, names the run, picks the likelihood and data, assembles the
 * metadata and calls the sampler. The sampler itself is not modelled: a fit
 * returns the call it would make, with every argument it would pass.
 */
module Sampler {
  import opened Wrappers
  import opened PyValues
  import opened PyDict

  /**
   * The first `isinstance` branch of `fit_model` a transient falls into;
   * `OtherKind` is a transient none of the five classes accepts.
   */
  datatype TransientKind = Afterglow | Kilonova | PromptTimeSeries | Supernova | Tde | OtherKind

  /** The arrays x, x_err, y, y_err of a transient. */
  datatype Series = Series(x: seq<real>, xErr: seq<real>, y: seq<real>, yErr: seq<real>)

  datatype Transient = Transient(
    kind: TransientKind,
    className: string,
    photonIndex: real,
    fluxDensityData: bool,
    photometryData: bool,
    raw: Series,
    /** What `get_filtered_data()` returns. */
    filtered: Series,
    binSize: real,
    /** The items of the instance `__dict__`, in insertion order. */
    attributes: seq<(string, KwValue)>)

  /** A model function: its `__name__`, and the address its `repr` shows. */
  datatype ModelFunction = ModelFunction(name: string, address: string)

  /** The `model` argument: a key of the model library, or a function. */
  datatype ModelArg = ModelName(key: string) | ModelValue(fn: ModelFunction)

  datatype Prior =
    | Uniform(minimum: real, maximum: real, name: string)
    | Gaussian(mu: real, sigma: real)
    | FromFile(entry: string)

  type PriorDict = map<string, Prior>

  /**
   * What the package provides: the model library, its own directory, and the
   * prior files on disk, each under its path and already parsed.
   */
  datatype Library = Library(
    models: map<string, ModelFunction>,
    packageDir: string,
    priorFiles: map<string, PriorDict>)

  /** The arguments of `fit_model`. */
  datatype FitRequest = FitRequest(
    name: string,
    transient: Transient,
    model: ModelArg,
    outdir: string,
    sampler: string,
    nlive: int,
    prior: Option<PriorDict>,
    walks: int,
    truncate: KwValue,
    usePhotonIndexPrior: bool,
    truncateMethod: KwValue,
    dataMode: string,
    resume: KwValue,
    saveFormat: string,
    modelKwargs: KwValue,
    kwargs: map<string, KwValue>)

  /** A call of `fit_model` that passes only the three required arguments. */
  function DefaultRequest(name: string, transient: Transient, model: ModelArg): (req: FitRequest)
    ensures req.name == name && req.transient == transient && req.model == model
    ensures req.prior.None? && req.kwargs == map[]
  {
    FitRequest(name, transient, model, ".", "dynesty", 2000, None, 200, KwBool(true), false,
               KwStr("prompt_time_error"), "flux", KwBool(true), "json", KwNone, map[])
  }

  datatype Likelihood =
    | GaussianLikelihood(x: seq<real>, y: seq<real>, sigma: seq<real>, model: ModelFunction, modelKwargs: KwValue)
    | PoissonLikelihood(time: seq<real>, counts: seq<real>, dt: real, model: ModelFunction,
                        integratedRateFunction: KwValue, modelKwargs: KwValue)
    | Supplied(value: KwValue)

  /** The keyword arguments of one `bilby.run_sampler` call; `extra` is what `**kwargs` adds. */
  datatype SamplerCall = SamplerCall(
    likelihood: Likelihood,
    priors: PriorDict,
    runLabel: string,
    sampler: string,
    nlive: int,
    outdir: string,
    plot: bool,
    useRatio: bool,
    walks: int,
    resume: KwValue,
    maxmcmc: int,
    metaData: Dict<string, KwValue>,
    nthreads: int,
    saveBounds: bool,
    nsteps: int,
    nwalkers: int,
    save: string,
    extra: map<string, KwValue>)

  /** A fit either reaches the sampler or, for the stub kinds, returns None. */
  datatype FitOutcome = Sampled(call: SamplerCall) | NoResult

  datatype FitError =
    | KeyError(key: string)
    | ValueError(message: string)
    /** A keyword given both explicitly and through `**kwargs`. */
    | TypeError(duplicates: set<string>)
    /** A prior file that does not exist. */
    | FileNotFoundError(path: string)

  /** The arguments `fit_model` passes on to a fitter, the model resolved and the prior loaded. */
  datatype FitterArgs = FitterArgs(
    name: string,
    transient: Transient,
    model: ModelFunction,
    outdir: string,
    sampler: string,
    nlive: int,
    prior: PriorDict,
    walks: int,
    usePhotonIndexPrior: bool,
    dataMode: string,
    resume: KwValue,
    saveFormat: string,
    modelKwargs: KwValue,
    kwargs: map<string, KwValue>)

  // ---------------------------------------------------------------------
  // Model and prior resolution

  /** A model name is looked up in the library; a function is used as given. */
  function ResolveModel(lib: Library, model: ModelArg): (r: Result<ModelFunction, FitError>)
    ensures model.ModelValue? ==> r == Success(model.fn)
    ensures model.ModelName? ==> (r.Success? <==> model.key in lib.models)
    ensures model.ModelName? && model.key in lib.models ==> r.value == lib.models[model.key]
    ensures model.ModelName? && model.key !in lib.models ==> r == Failure(KeyError(model.key))
  {
    match model
    case ModelValue(f) => Success(f)
    case ModelName(key) =>
      if key in lib.models then Success(lib.models[key]) else Failure(KeyError(key))
  }

  /** `str()` of a Python function object. */
  function FunctionRepr(f: ModelFunction): string {
    "<function " + f.name + " at " + f.address + ">"
  }

  /** The prior file as the source formats it: the function object, not its name, goes into the path. */
  function PriorPathAsWritten(lib: Library, f: ModelFunction): (path: string)
    ensures StartsWith(path, lib.packageDir + "/Priors/<function ")
    ensures path == lib.packageDir + "/Priors/" + FunctionRepr(f) + ".prior"
  {
    var path := lib.packageDir + "/Priors/" + FunctionRepr(f) + ".prior";
    assert path[..|lib.packageDir + "/Priors/<function "|] == lib.packageDir + "/Priors/<function ";
    path
  }

  /** The prior file named after the model: `Priors/<name>.prior` in the package directory. */
  function PriorPath(lib: Library, f: ModelFunction): (path: string)
    ensures StartsWith(path, lib.packageDir + "/Priors/" + f.name)
    ensures |path| == |lib.packageDir| + |f.name| + 14
    ensures path == lib.packageDir + "/Priors/" + f.name + ".prior"
  {
    var path := lib.packageDir + "/Priors/" + f.name + ".prior";
    assert path[..|lib.packageDir + "/Priors/" + f.name|] == lib.packageDir + "/Priors/" + f.name;
    path
  }

  /** The path the source builds is never the one named after the model: the repr adds 15 characters or more. */
  lemma PriorPathAsWrittenMisses(lib: Library, f: ModelFunction)
    ensures PriorPathAsWritten(lib, f) != PriorPath(lib, f)
    ensures |PriorPathAsWritten(lib, f)| >= |PriorPath(lib, f)| + 15
  {
    assert |PriorPathAsWritten(lib, f)| == |lib.packageDir| + |f.name| + |f.address| + 29;
  }

  /** `PriorDict(filename=path)`: the prior stored at the path, or FileNotFoundError when there is none. */
  function LoadPrior(lib: Library, path: string): (r: Result<PriorDict, FitError>)
    ensures r.Success? <==> path in lib.priorFiles
    ensures r.Success? ==> r.value == lib.priorFiles[path]
    ensures r.Failure? ==> r.error == FileNotFoundError(path)
  {
    if path in lib.priorFiles then Success(lib.priorFiles[path]) else Failure(FileNotFoundError(path))
  }

  /** The prior as the source obtains it: the given one, or the file named after the function's `repr`. */
  function InitialPriorAsWritten(lib: Library, given: Option<PriorDict>, f: ModelFunction)
    : (r: Result<PriorDict, FitError>)
    ensures given.Some? ==> r == Success(given.value)
    ensures given.None? ==> (r.Success? <==> PriorPathAsWritten(lib, f) in lib.priorFiles)
    ensures given.None? && r.Success? ==> r.value == lib.priorFiles[PriorPathAsWritten(lib, f)]
    ensures given.None? && r.Failure? ==> r.error == FileNotFoundError(PriorPathAsWritten(lib, f))
  {
    match given
    case Some(p) => Success(p)
    case None => LoadPrior(lib, PriorPathAsWritten(lib, f))
  }

  /** The prior used by the fit: the given one, or the file named after the model. */
  function InitialPrior(lib: Library, given: Option<PriorDict>, f: ModelFunction): (r: Result<PriorDict, FitError>)
    ensures given.Some? ==> r == Success(given.value)
    ensures given.None? ==> (r.Success? <==> PriorPath(lib, f) in lib.priorFiles)
    ensures given.None? && r.Success? ==> r.value == lib.priorFiles[PriorPath(lib, f)]
    ensures given.None? && r.Failure? ==> r.error == FileNotFoundError(PriorPath(lib, f))
  {
    match given
    case Some(p) => Success(p)
    case None => LoadPrior(lib, PriorPath(lib, f))
  }

  /** The two differ only in the file a missing prior is read from. */
  lemma InitialPriorsAgreeWhenGiven(lib: Library, given: Option<PriorDict>, f: ModelFunction)
    ensures given.Some? ==> InitialPriorAsWritten(lib, given, f) == InitialPrior(lib, given, f)
    ensures given.None? ==> InitialPriorAsWritten(lib, given, f) == LoadPrior(lib, PriorPathAsWritten(lib, f))
    ensures PriorPathAsWritten(lib, f) != PriorPath(lib, f)
  {
    PriorPathAsWrittenMisses(lib, f);
  }

  predicate IdentifierChar(c: char) {
    'a' <= c <= 'z' || 'A' <= c <= 'Z' || '0' <= c <= '9' || c == '_'
  }

  /** A Python identifier, as a function's `__name__` is: no digit first, then letters, digits and underscores. */
  predicate IsIdentifier(name: string) {
    |name| > 0 && !('0' <= name[0] <= '9') && forall i :: 0 <= i < |name| ==> IdentifierChar(name[i])
  }

  /** Every prior file of the package is named after a model: `Priors/<identifier>.prior`. */
  ghost predicate PriorsNamedByModel(lib: Library) {
    forall path :: path in lib.priorFiles ==>
      exists name :: IsIdentifier(name) && path == lib.packageDir + "/Priors/" + name + ".prior"
  }

  /** A `repr`-named path has `<` where a file named after an identifier has the identifier's first letter. */
  lemma ReprPathIsNoModelPath(lib: Library, f: ModelFunction, name: string)
    requires IsIdentifier(name)
    ensures PriorPathAsWritten(lib, f) != lib.packageDir + "/Priors/" + name + ".prior"
  {
    var prefix := lib.packageDir + "/Priors/";
    var named := prefix + name + ".prior";
    assert PriorPathAsWritten(lib, f) == prefix + ("<function " + f.name + " at " + f.address + ">.prior");
    assert PriorPathAsWritten(lib, f)[|prefix|] == '<';
    assert named == prefix + (name + ".prior");
    assert named[|prefix|] == name[0];
    assert IdentifierChar(name[0]);
  }

  /** When the prior files are named after models, the file the source reads never exists. */
  lemma ReprPriorFileMissing(lib: Library, f: ModelFunction)
    requires PriorsNamedByModel(lib)
    ensures PriorPathAsWritten(lib, f) !in lib.priorFiles
    ensures InitialPriorAsWritten(lib, None, f) == Failure(FileNotFoundError(PriorPathAsWritten(lib, f)))
  {
    if PriorPathAsWritten(lib, f) in lib.priorFiles {
      var name :| IsIdentifier(name) && PriorPathAsWritten(lib, f) == lib.packageDir + "/Priors/" + name + ".prior";
      ReprPathIsNoModelPath(lib, f, name);
    }
  }

  // ---------------------------------------------------------------------
  // The steps shared by the fitters

  /** The `alpha_1` prior implied by a measured photon index. */
  function PhotonIndexPrior(photonIndex: real): (p: Prior)
    ensures p.Uniform? <==> photonIndex < 0.0
    ensures p.Uniform? ==> p == Uniform(-10.0, -0.5, "alpha_1")
    ensures p.Gaussian? ==> p.sigma == 0.1 && p.mu <= -1.0 && p.mu + photonIndex == -1.0
  {
    if photonIndex < 0.0 then Uniform(-10.0, -0.5, "alpha_1")
    else Gaussian(-(photonIndex + 1.0), 0.1)
  }

  lemma PhotonIndexPriorExamples()
    ensures PhotonIndexPrior(1.5) == Gaussian(-2.5, 0.1)
    ensures PhotonIndexPrior(0.0) == Gaussian(-1.0, 0.1)
    ensures PhotonIndexPrior(-0.1) == Uniform(-10.0, -0.5, "alpha_1")
  {
  }

  /** The prior a GRB fit samples with: only `alpha_1` changes, and only when the flag is set. */
  function AdjustPrior(prior: PriorDict, usePhotonIndexPrior: bool, photonIndex: real): (p: PriorDict)
    ensures !usePhotonIndexPrior ==> p == prior
    ensures usePhotonIndexPrior ==> "alpha_1" in p && p["alpha_1"] == PhotonIndexPrior(photonIndex)
    ensures forall k :: k != "alpha_1" ==> (k in p <==> k in prior)
    ensures forall k :: k != "alpha_1" && k in p ==> p[k] == prior[k]
  {
    if usePhotonIndexPrior then prior["alpha_1" := PhotonIndexPrior(photonIndex)] else prior
  }

  /** The run label: the data mode, with `_photon_index` appended when the flag is set. */
  function Label(dataMode: string, usePhotonIndexPrior: bool): (lbl: string)
    ensures StartsWith(lbl, dataMode)
    ensures usePhotonIndexPrior <==> |lbl| == |dataMode| + 13
    ensures usePhotonIndexPrior ==> lbl[|dataMode|..] == "_photon_index"
    ensures usePhotonIndexPrior ==> lbl == dataMode + "_photon_index"
    ensures !usePhotonIndexPrior ==> lbl == dataMode
  {
    var lbl := if usePhotonIndexPrior then dataMode + "_photon_index" else dataMode;
    assert lbl[..|dataMode|] == dataMode;
    lbl
  }

  /** Output directory of an afterglow or prompt fit. */
  function GrbOutdir(outdir: string, name: string, model: ModelFunction): (dir: string)
    ensures StartsWith(dir, outdir + "/GRB" + name + "/")
    ensures dir[|outdir + "/GRB" + name + "/"|..] == model.name
  {
    var prefix := outdir + "/GRB" + name + "/";
    var dir := prefix + model.name;
    assert dir[..|prefix|] == prefix;
    dir
  }

  /** Output directory of a kilonova fit: as for a GRB, but without the `GRB` prefix. */
  function KilonovaOutdir(outdir: string, name: string, model: ModelFunction): (dir: string)
    ensures StartsWith(dir, outdir + "/" + name + "/")
    ensures dir[|outdir + "/" + name + "/"|..] == model.name
    ensures |dir| + 3 == |GrbOutdir(outdir, name, model)|
  {
    var prefix := outdir + "/" + name + "/";
    var dir := prefix + model.name;
    assert dir[..|prefix|] == prefix;
    dir
  }

  /** Filtered data when the transient holds flux densities or photometry, its raw arrays otherwise. */
  function SelectData(t: Transient): (s: Series)
    ensures t.fluxDensityData || t.photometryData ==> s == t.filtered
    ensures !(t.fluxDensityData || t.photometryData) ==> s == t.raw
  {
    if t.fluxDensityData || t.photometryData then t.filtered else t.raw
  }

  /** `kwargs.get('likelihood', GaussianLikelihood(...))`. */
  function SelectLikelihood(kwargs: map<string, KwValue>, data: Series, model: ModelFunction, modelKwargs: KwValue)
    : (l: Likelihood)
    ensures l.Supplied? <==> "likelihood" in kwargs
    ensures l.Supplied? ==> l.value == kwargs["likelihood"]
    ensures l.GaussianLikelihood? ==> l.x == data.x && l.y == data.y && l.sigma == data.yErr
    ensures l.GaussianLikelihood? ==> l.model == model && l.modelKwargs == modelKwargs
  {
    if "likelihood" in kwargs then Supplied(kwargs["likelihood"])
    else GaussianLikelihood(data.x, data.y, data.yErr, model, modelKwargs)
  }

  /** The attribute items with their leading underscores stripped, as the dictionary comprehension reads them. */
  function StripKeys(attributes: seq<(string, KwValue)>): (pairs: seq<(string, KwValue)>)
    ensures |pairs| == |attributes|
    ensures forall i :: 0 <= i < |attributes| ==> pairs[i] == (LStrip(attributes[i].0, '_'), attributes[i].1)
  {
    seq(|attributes|, i requires 0 <= i < |attributes| => (LStrip(attributes[i].0, '_'), attributes[i].1))
  }

  /** The two entries every metadata dictionary starts from. */
  function MetaHead(modelName: string, transientType: string): (d: Dict<string, KwValue>)
    ensures Keys(d) == ["model", "transient_type"]
    ensures UniqueKeys(d)
    ensures Get(d, "model") == Some(KwStr(modelName))
    ensures Get(d, "transient_type") == Some(KwStr(transientType))
  {
    var d := [("model", KwStr(modelName)), ("transient_type", KwStr(transientType))];
    assert Keys(d) == ["model", "transient_type"];
    d
  }

  /**
   * The order of the metadata keys: `model` and `transient_type`, then the
   * stripped attribute keys in order of first occurrence, then `model_kwargs`
   * unless an attribute already placed it.
   */
  function MetaKeyOrder(attributes: seq<(string, KwValue)>): (ks: seq<string>)
    ensures "model_kwargs" !in Keys(StripKeys(attributes)) ==> |ks| > 0 && ks[|ks| - 1] == "model_kwargs"
  {
    var stripped := Keys(StripKeys(attributes));
    AppendNewSnoc(["model", "transient_type"], stripped, "model_kwargs");
    AppendNewMembers(["model", "transient_type"], stripped, "model_kwargs");
    AppendNew(["model", "transient_type"], stripped + ["model_kwargs"])
  }

  /**
   * `meta_data`: model and transient type first, then the transient's attributes with
   * their leading underscores stripped, then `model_kwargs`.
   */
  function MetaData(modelName: string, transientType: string, attributes: seq<(string, KwValue)>,
                    modelKwargs: KwValue): (meta: Dict<string, KwValue>)
    ensures UniqueKeys(meta)
    ensures |meta| >= 2 && Keys(meta)[0] == "model" && Keys(meta)[1] == "transient_type"
    ensures Get(meta, "model_kwargs") == Some(modelKwargs)
    ensures forall k :: k in Keys(meta) ==> !StartsWith(k, "_")
    ensures forall k :: k in Keys(meta) <==>
      k == "model" || k == "transient_type" || k == "model_kwargs" || k in Keys(StripKeys(attributes))
    ensures Keys(meta) == MetaKeyOrder(attributes)
  {
    MetaDataShape(modelName, transientType, attributes, modelKwargs);
    Put(Merged(modelName, transientType, attributes), "model_kwargs", modelKwargs)
  }

  lemma MetaDataShape(modelName: string, transientType: string, attributes: seq<(string, KwValue)>,
                      modelKwargs: KwValue)
    ensures var meta := Put(Merged(modelName, transientType, attributes), "model_kwargs", modelKwargs);
      && UniqueKeys(meta)
      && |meta| >= 2 && Keys(meta)[0] == "model" && Keys(meta)[1] == "transient_type"
      && Get(meta, "model_kwargs") == Some(modelKwargs)
      && (forall k :: k in Keys(meta) ==> !StartsWith(k, "_"))
      && (forall k :: k in Keys(meta) <==>
            k == "model" || k == "transient_type" || k == "model_kwargs" || k in Keys(StripKeys(attributes)))
      && Keys(meta) == MetaKeyOrder(attributes)
  {
    MergedShape(modelName, transientType, attributes);
    AssignModelKwargs(Merged(modelName, transientType, attributes), modelKwargs);
    MetaDataKeyOrder(modelName, transientType, attributes, modelKwargs);
  }

  /** Unless an attribute strips to `model_kwargs`, that key comes last in the metadata. */
  lemma MetaDataModelKwargsLast(modelName: string, transientType: string, attributes: seq<(string, KwValue)>,
                                modelKwargs: KwValue)
    requires "model_kwargs" !in Keys(StripKeys(attributes))
    ensures var meta := MetaData(modelName, transientType, attributes, modelKwargs);
      |meta| > 0 && Keys(meta)[|meta| - 1] == "model_kwargs"
  {
    var meta := MetaData(modelName, transientType, attributes, modelKwargs);
    assert Keys(meta) == MetaKeyOrder(attributes);
  }

  /**
   * The metadata keys in order: the head, then the stripped attribute keys in
   * order of first occurrence, then `model_kwargs` unless an attribute already
   * placed it.
   */
  lemma MetaDataKeyOrder(modelName: string, transientType: string, attributes: seq<(string, KwValue)>,
                         modelKwargs: KwValue)
    ensures var meta := Put(Merged(modelName, transientType, attributes), "model_kwargs", modelKwargs);
      && Keys(meta) == AppendNew(["model", "transient_type"], Keys(StripKeys(attributes)) + ["model_kwargs"])
      && ("model_kwargs" !in Keys(StripKeys(attributes)) ==> Keys(meta)[|meta| - 1] == "model_kwargs")
  {
    var stripped := Keys(StripKeys(attributes));
    MergedKeys(modelName, transientType, attributes);
    AppendNewSnoc(["model", "transient_type"], stripped, "model_kwargs");
    AppendNewMembers(["model", "transient_type"], stripped, "model_kwargs");
  }

  lemma MergedKeys(modelName: string, transientType: string, attributes: seq<(string, KwValue)>)
    ensures Keys(Merged(modelName, transientType, attributes))
            == AppendNew(["model", "transient_type"], Keys(StripKeys(attributes)))
  {
    var head := MetaHead(modelName, transientType);
    UpdateKeys(head, FromPairs(StripKeys(attributes)));
    AppendNewOnce(Keys(head), Keys(StripKeys(attributes)));
  }

  /** Assigning `model_kwargs` last keeps the shape of the metadata built so far. */
  lemma AssignModelKwargs(merged: Dict<string, KwValue>, modelKwargs: KwValue)
    requires UniqueKeys(merged)
    requires |merged| >= 2 && Keys(merged)[0] == "model" && Keys(merged)[1] == "transient_type"
    requires forall k :: k in Keys(merged) ==> !StartsWith(k, "_")
    ensures var meta := Put(merged, "model_kwargs", modelKwargs);
      && UniqueKeys(meta)
      && |meta| >= 2 && Keys(meta)[0] == "model" && Keys(meta)[1] == "transient_type"
      && Get(meta, "model_kwargs") == Some(modelKwargs)
      && (forall k :: k in Keys(meta) ==> !StartsWith(k, "_"))
      && (forall k :: k in Keys(meta) <==> k in Keys(merged) || k == "model_kwargs")
  {
    PutUnique(merged, "model_kwargs", modelKwargs);
    PutGet(merged, "model_kwargs", modelKwargs, "model_kwargs");
    assert "model_kwargs"[..1] == "m";
  }

  /** The metadata before `model_kwargs` is assigned. */
  function Merged(modelName: string, transientType: string, attributes: seq<(string, KwValue)>)
    : Dict<string, KwValue>
  {
    Update(MetaHead(modelName, transientType), FromPairs(StripKeys(attributes)))
  }

  lemma MergedShape(modelName: string, transientType: string, attributes: seq<(string, KwValue)>)
    ensures var merged := Merged(modelName, transientType, attributes);
      && UniqueKeys(merged)
      && |merged| >= 2 && Keys(merged)[0] == "model" && Keys(merged)[1] == "transient_type"
      && (forall k :: k in Keys(merged) ==> !StartsWith(k, "_"))
      && (forall k :: k in Keys(merged) <==> k == "model" || k == "transient_type" || k in Keys(StripKeys(attributes)))
  {
    var head := MetaHead(modelName, transientType);
    var pairs := StripKeys(attributes);
    var body := FromPairs(pairs);
    UpdateUnique(head, body);
    var merged := Update(head, body);
    assert Keys(merged)[..2] == ["model", "transient_type"];
    assert Keys(merged)[0] == Keys(merged)[..2][0];
    assert Keys(merged)[1] == Keys(merged)[..2][1];
    forall k | k in Keys(merged)
      ensures !StartsWith(k, "_")
    {
      UpdateKeySource(head, body, k);
      if k in Keys(body) {
        FromPairsKeySource(pairs, k);
        StrippedKeyClean(attributes, k);
      } else {
        MetaHeadKeysClean();
      }
    }
  }

  lemma UpdateKeySource(head: Dict<string, KwValue>, body: Dict<string, KwValue>, k: string)
    requires k in Keys(Update(head, body))
    ensures k in Keys(head) || k in Keys(body)
  {
  }

  lemma FromPairsKeySource(pairs: seq<(string, KwValue)>, k: string)
    requires k in Keys(FromPairs(pairs))
    ensures k in Keys(pairs)
  {
  }

  lemma MetaHeadKeysClean()
    ensures !StartsWith("model", "_") && !StartsWith("transient_type", "_")
  {
    assert "model"[..1] == "m";
    assert "transient_type"[..1] == "t";
  }

  lemma StrippedKeyClean(attributes: seq<(string, KwValue)>, k: string)
    requires k in Keys(StripKeys(attributes))
    ensures !StartsWith(k, "_")
  {
    var pairs := StripKeys(attributes);
    var i :| 0 <= i < |pairs| && Keys(pairs)[i] == k;
    LStripUnderscoreClean(attributes[i].0);
  }

  /** An attribute that does not strip to `model_kwargs` keeps the value of its last occurrence. */
  lemma MetaDataAttribute(modelName: string, transientType: string, attributes: seq<(string, KwValue)>,
                          modelKwargs: KwValue, key: string)
    requires key != "model_kwargs"
    requires LastValue(StripKeys(attributes), key).Some?
    ensures Get(MetaData(modelName, transientType, attributes, modelKwargs), key)
            == LastValue(StripKeys(attributes), key)
  {
    var head := MetaHead(modelName, transientType);
    var pairs := StripKeys(attributes);
    UpdateGet([], pairs, key);
    UpdateGet(head, FromPairs(pairs), key);
    FromPairsLast(pairs, key);
    PutGet(Update(head, FromPairs(pairs)), "model_kwargs", modelKwargs, key);
  }

  /** Reading a key back from a dictionary built from pairs gives its last value. */
  lemma FromPairsLast(pairs: seq<(string, KwValue)>, key: string)
    ensures LastValue(FromPairs(pairs), key) == Get(FromPairs(pairs), key)
  {
    var d := FromPairs(pairs);
    UniqueLastIsGet(d, key);
  }

  /** In a dictionary with unique keys the first and the last entry of a key coincide. */
  lemma {:induction false} UniqueLastIsGet(d: Dict<string, KwValue>, key: string)
    requires UniqueKeys(d)
    ensures LastValue(d, key) == Get(d, key)
    decreases |d|
  {
    if |d| > 0 {
      var n := |d| - 1;
      var front := d[..n];
      assert Keys(front) == Keys(d)[..n];
      UniqueLastIsGet(front, key);
      GetSnoc(front, d[n], key);
      assert front + [d[n]] == d;
      if d[n].0 == key {
        assert key !in Keys(front);
      }
    }
  }

  lemma {:induction false} GetSnoc(d: Dict<string, KwValue>, last: (string, KwValue), key: string)
    ensures key in Keys(d) ==> Get(d + [last], key) == Get(d, key)
    ensures key !in Keys(d) && last.0 == key ==> Get(d + [last], key) == Some(last.1)
    ensures key !in Keys(d) && last.0 != key ==> Get(d + [last], key).None?
    decreases |d|
  {
    if |d| > 0 {
      assert (d + [last])[1..] == d[1..] + [last];
      assert Keys(d) == [d[0].0] + Keys(d[1..]);
      GetSnoc(d[1..], last, key);
    }
  }

  /** The model entry is the model's name unless an attribute strips to `model`. */
  lemma MetaDataModelEntry(modelName: string, transientType: string, attributes: seq<(string, KwValue)>,
                           modelKwargs: KwValue)
    requires LastValue(StripKeys(attributes), "model").None?
    ensures Get(MetaData(modelName, transientType, attributes, modelKwargs), "model") == Some(KwStr(modelName))
  {
    var head := MetaHead(modelName, transientType);
    var pairs := StripKeys(attributes);
    UpdateGet([], pairs, "model");
    UpdateGet(head, FromPairs(pairs), "model");
    FromPairsLast(pairs, "model");
    PutGet(Update(head, FromPairs(pairs)), "model_kwargs", modelKwargs, "model");
  }

  /** The transient type entry is the one given unless an attribute strips to `transient_type`. */
  lemma MetaDataTransientTypeEntry(modelName: string, transientType: string, attributes: seq<(string, KwValue)>,
                                   modelKwargs: KwValue)
    requires LastValue(StripKeys(attributes), "transient_type").None?
    ensures Get(MetaData(modelName, transientType, attributes, modelKwargs), "transient_type")
            == Some(KwStr(transientType))
  {
    var head := MetaHead(modelName, transientType);
    var pairs := StripKeys(attributes);
    UpdateGet([], pairs, "transient_type");
    UpdateGet(head, FromPairs(pairs), "transient_type");
    FromPairsLast(pairs, "transient_type");
    PutGet(Update(head, FromPairs(pairs)), "model_kwargs", modelKwargs, "transient_type");
  }

  // ---------------------------------------------------------------------
  // The sampler call

  /** The keywords every fitter passes to `run_sampler` explicitly. */
  const SamplerKeywords: set<string> := {
    "likelihood", "priors", "label", "sampler", "nlive", "outdir", "plot", "use_ratio", "walks",
    "resume", "maxmcmc", "result_class", "meta_data", "nthreads", "save_bounds", "nsteps",
    "nwalkers", "save"
  }

  /**
   * The sampler settings every fitter passes on from its arguments, and the ones
   * it fixes: `nsteps` is `nlive`, `nwalkers` is `walks`, `maxmcmc` is ten times
   * `walks`, four threads, plotting on, no ratio and no saved bounds.
   */
  predicate ForwardsSettings(c: SamplerCall, a: FitterArgs)
  {
    && c.sampler == a.sampler && c.resume == a.resume && c.save == a.saveFormat
    && c.nlive == a.nlive && c.nsteps == a.nlive
    && c.walks == a.walks && c.nwalkers == a.walks && c.maxmcmc == 10 * a.walks
    && c.nthreads == 4 && c.plot && !c.useRatio && !c.saveBounds
  }

  /**
   * `run_sampler(..., **kwargs)`: Python refuses the call when `kwargs` repeats an
   * explicit keyword; otherwise the sampler receives the fixed settings below.
   */
  function RunSampler(a: FitterArgs, likelihood: Likelihood, prior: PriorDict, lbl: string,
                      outdir: string, meta: Dict<string, KwValue>, extra: map<string, KwValue>)
    : (r: Result<FitOutcome, FitError>)
    ensures r.Failure? <==> exists k :: k in extra && k in SamplerKeywords
    ensures r.Failure? ==> r.error == TypeError(extra.Keys * SamplerKeywords)
    ensures r.Failure? ==> r.error.TypeError?
    ensures r.Success? ==> r.value.Sampled?
    ensures r.Success? ==> var c := r.value.call;
      && c.likelihood == likelihood && c.priors == prior && c.runLabel == lbl && c.outdir == outdir
      && c.metaData == meta && c.extra == extra
      && ForwardsSettings(c, a)
  {
    if exists k :: k in extra && k in SamplerKeywords then
      Failure(TypeError(extra.Keys * SamplerKeywords))
    else
      Success(Sampled(SamplerCall(likelihood, prior, lbl, a.sampler, a.nlive, outdir, true, false,
                                  a.walks, a.resume, 10 * a.walks, meta, 4, false, a.nlive, a.walks,
                                  a.saveFormat, extra)))
  }

  // ---------------------------------------------------------------------
  // The fitters

  /** `_fit_grb`. */
  function FitGrb(a: FitterArgs): (r: Result<FitOutcome, FitError>)
    ensures r.Success? <==> forall k :: k in a.kwargs ==> k !in SamplerKeywords
    ensures r.Failure? ==> r.error.TypeError?
    ensures r.Success? ==> r.value.Sampled?
    ensures r.Success? ==> var c := r.value.call;
      && c.priors == AdjustPrior(a.prior, a.usePhotonIndexPrior, a.transient.photonIndex)
      && c.runLabel == Label(a.dataMode, a.usePhotonIndexPrior)
      && c.outdir == GrbOutdir(a.outdir, a.name, a.model)
      && c.likelihood == GaussianLikelihood(SelectData(a.transient).x, SelectData(a.transient).y,
                                            SelectData(a.transient).yErr, a.model, a.modelKwargs)
      && c.metaData == MetaData(a.model.name, Lower(a.transient.className), a.transient.attributes, a.modelKwargs)
      && c.extra == a.kwargs
      && ForwardsSettings(c, a)
  {
    var prior := AdjustPrior(a.prior, a.usePhotonIndexPrior, a.transient.photonIndex);
    var outdir := GrbOutdir(a.outdir, a.name, a.model);
    var lbl := Label(a.dataMode, a.usePhotonIndexPrior);
    assert "likelihood" in SamplerKeywords;
    var likelihood := SelectLikelihood(a.kwargs, SelectData(a.transient), a.model, a.modelKwargs);
    var meta := MetaData(a.model.name, Lower(a.transient.className), a.transient.attributes, a.modelKwargs);
    RunSampler(a, likelihood, prior, lbl, outdir, meta, a.kwargs)
  }

  /** `_fit_kilonova`: as `_fit_grb`, without the prior adjustment and the `GRB` directory prefix. */
  function FitKilonova(a: FitterArgs): (r: Result<FitOutcome, FitError>)
    ensures r.Success? <==> forall k :: k in a.kwargs ==> k !in SamplerKeywords
    ensures r.Failure? ==> r.error.TypeError?
    ensures r.Success? ==> r.value.Sampled?
    ensures r.Success? ==> var c := r.value.call;
      && c.priors == a.prior
      && c.runLabel == Label(a.dataMode, a.usePhotonIndexPrior)
      && c.outdir == KilonovaOutdir(a.outdir, a.name, a.model)
      && c.likelihood == GaussianLikelihood(SelectData(a.transient).x, SelectData(a.transient).y,
                                            SelectData(a.transient).yErr, a.model, a.modelKwargs)
      && c.metaData == MetaData(a.model.name, Lower(a.transient.className), a.transient.attributes, a.modelKwargs)
      && c.extra == a.kwargs
      && ForwardsSettings(c, a)
  {
    var outdir := KilonovaOutdir(a.outdir, a.name, a.model);
    var lbl := Label(a.dataMode, a.usePhotonIndexPrior);
    assert "likelihood" in SamplerKeywords;
    var likelihood := SelectLikelihood(a.kwargs, SelectData(a.transient), a.model, a.modelKwargs);
    var meta := MetaData(a.model.name, Lower(a.transient.className), a.transient.attributes, a.modelKwargs);
    RunSampler(a, likelihood, a.prior, lbl, outdir, meta, a.kwargs)
  }

  /**
   * `_fit_prompt`: a Poisson likelihood over the raw counts. A keyword argument
   * named `integrated_rate_function` binds to the fitter's parameter of that
   * name (default True) and is not forwarded to the sampler.
   */
  function FitPrompt(a: FitterArgs): (r: Result<FitOutcome, FitError>)
    ensures r.Success? <==> forall k :: k in a.kwargs && k != "integrated_rate_function" ==> k !in SamplerKeywords
    ensures r.Failure? ==> r.error.TypeError?
    ensures r.Success? ==> r.value.Sampled?
    ensures r.Success? ==> var c := r.value.call;
      && c.priors == a.prior
      && c.runLabel == Label(a.dataMode, a.usePhotonIndexPrior)
      && c.outdir == GrbOutdir(a.outdir, a.name, a.model)
      && c.likelihood.PoissonLikelihood?
      && c.likelihood.time == a.transient.raw.x && c.likelihood.counts == a.transient.raw.y
      && c.likelihood.dt == a.transient.binSize
      && c.likelihood.model == a.model && c.likelihood.modelKwargs == a.modelKwargs
      && ("integrated_rate_function" in a.kwargs ==>
            c.likelihood.integratedRateFunction == a.kwargs["integrated_rate_function"])
      && ("integrated_rate_function" !in a.kwargs ==> c.likelihood.integratedRateFunction == KwBool(true))
      && c.metaData == MetaData(a.model.name, "prompt", a.transient.attributes, a.modelKwargs)
      && c.extra == a.kwargs - {"integrated_rate_function"}
      && ForwardsSettings(c, a)
  {
    var integrated := if "integrated_rate_function" in a.kwargs then a.kwargs["integrated_rate_function"]
                      else KwBool(true);
    var extra := a.kwargs - {"integrated_rate_function"};
    assert forall k :: k in extra <==> k in a.kwargs && k != "integrated_rate_function";
    var outdir := GrbOutdir(a.outdir, a.name, a.model);
    var lbl := Label(a.dataMode, a.usePhotonIndexPrior);
    var likelihood := PoissonLikelihood(a.transient.raw.x, a.transient.raw.y, a.transient.binSize, a.model,
                                        integrated, a.modelKwargs);
    var meta := MetaData(a.model.name, "prompt", a.transient.attributes, a.modelKwargs);
    RunSampler(a, likelihood, a.prior, lbl, outdir, meta, extra)
  }

  /** `likelihood` is one of the sampler's explicit keywords, so a supplied likelihood never reaches it. */
  lemma LikelihoodOverrideRefused(a: FitterArgs)
    requires "likelihood" in a.kwargs
    ensures FitGrb(a).Failure? && FitKilonova(a).Failure? && FitPrompt(a).Failure?
  {
    assert "likelihood" in SamplerKeywords;
  }

  // ---------------------------------------------------------------------
  // fit_model

  /** The arguments `fit_model` hands to a fitter; only the GRB and kilonova fitters are given the truncation settings. */
  function FitterArgsOf(req: FitRequest, model: ModelFunction, prior: PriorDict, withTruncation: bool)
    : (a: FitterArgs)
    ensures a.model == model && a.prior == prior && a.name == req.name && a.transient == req.transient
    ensures a.outdir == req.outdir && a.sampler == req.sampler && a.nlive == req.nlive && a.walks == req.walks
    ensures a.usePhotonIndexPrior == req.usePhotonIndexPrior && a.dataMode == req.dataMode
    ensures a.resume == req.resume && a.saveFormat == req.saveFormat && a.modelKwargs == req.modelKwargs
    ensures withTruncation ==> a.kwargs == req.kwargs["truncate" := req.truncate]["truncate_method" := req.truncateMethod]
    ensures !withTruncation ==> a.kwargs == req.kwargs
  {
    var kwargs := if withTruncation then req.kwargs["truncate" := req.truncate]["truncate_method" := req.truncateMethod]
                  else req.kwargs;
    FitterArgs(req.name, req.transient, model, req.outdir, req.sampler, req.nlive, prior, req.walks,
               req.usePhotonIndexPrior, req.dataMode, req.resume, req.saveFormat, req.modelKwargs, kwargs)
  }

  /** The dispatch on the transient's kind, once the model and its prior are known. */
  function Dispatch(req: FitRequest, f: ModelFunction, prior: PriorDict): Result<FitOutcome, FitError> {
    match req.transient.kind
    case Afterglow => FitGrb(FitterArgsOf(req, f, prior, true))
    case Kilonova => FitKilonova(FitterArgsOf(req, f, prior, true))
    case PromptTimeSeries => FitPrompt(FitterArgsOf(req, f, prior, false))
    case Supernova => Success(NoResult)
    case Tde => Success(NoResult)
    case OtherKind => Failure(ValueError("Source type " + req.transient.className + " not known"))
  }

  /**
   * `fit_model` as the source writes it: a missing prior is read from the file
   * named after the function object's `repr`.
   */
  function FitModelAsWritten(lib: Library, req: FitRequest): (r: Result<FitOutcome, FitError>)
    ensures ResolveModel(lib, req.model).Failure? ==> r == Failure(ResolveModel(lib, req.model).error)
    ensures ResolveModel(lib, req.model).Success? ==>
      var f := ResolveModel(lib, req.model).value;
      var prior := InitialPriorAsWritten(lib, req.prior, f);
      && (prior.Failure? ==> r == Failure(prior.error))
      && (prior.Success? ==>
            match req.transient.kind
            case Afterglow => r == FitGrb(FitterArgsOf(req, f, prior.value, true))
            case Kilonova => r == FitKilonova(FitterArgsOf(req, f, prior.value, true))
            case PromptTimeSeries => r == FitPrompt(FitterArgsOf(req, f, prior.value, false))
            case Supernova => r == Success(NoResult)
            case Tde => r == Success(NoResult)
            case OtherKind => r == Failure(ValueError("Source type " + req.transient.className + " not known")))
  {
    var f :- ResolveModel(lib, req.model);
    var prior :- InitialPriorAsWritten(lib, req.prior, f);
    Dispatch(req, f, prior)
  }

  /** `fit_model`: resolve the model, obtain the prior, dispatch on the transient's kind. */
  function FitModel(lib: Library, req: FitRequest): (r: Result<FitOutcome, FitError>)
    ensures ResolveModel(lib, req.model).Failure? ==> r == Failure(ResolveModel(lib, req.model).error)
    ensures ResolveModel(lib, req.model).Success? ==>
      var f := ResolveModel(lib, req.model).value;
      var prior := InitialPrior(lib, req.prior, f);
      && (prior.Failure? ==> r == Failure(prior.error))
      && (prior.Success? ==>
            match req.transient.kind
            case Afterglow => r == FitGrb(FitterArgsOf(req, f, prior.value, true))
            case Kilonova => r == FitKilonova(FitterArgsOf(req, f, prior.value, true))
            case PromptTimeSeries => r == FitPrompt(FitterArgsOf(req, f, prior.value, false))
            case Supernova => r == Success(NoResult)
            case Tde => r == Success(NoResult)
            case OtherKind => r == Failure(ValueError("Source type " + req.transient.className + " not known")))
  {
    var f :- ResolveModel(lib, req.model);
    var prior :- InitialPrior(lib, req.prior, f);
    Dispatch(req, f, prior)
  }

  /** The two readings of `fit_model` agree whenever a prior is given. */
  lemma FitModelAsWrittenAgreesWhenGiven(lib: Library, req: FitRequest)
    requires req.prior.Some?
    ensures FitModelAsWritten(lib, req) == FitModel(lib, req)
  {
    if ResolveModel(lib, req.model).Success? {
      var f := ResolveModel(lib, req.model).value;
      assert InitialPriorAsWritten(lib, req.prior, f) == InitialPrior(lib, req.prior, f);
    }
  }

  /**
   * Without a prior, `fit_model` as written fails on the missing `repr`-named
   * file whenever the package's prior files are named after models, whatever
   * the transient; the corrected fit fails for want of a file only when the
   * model's own prior file is missing.
   */
  lemma FitModelAsWrittenMissesPriorFile(lib: Library, req: FitRequest)
    requires req.prior.None? && ResolveModel(lib, req.model).Success? && PriorsNamedByModel(lib)
    ensures var f := ResolveModel(lib, req.model).value;
      FitModelAsWritten(lib, req) == Failure(FileNotFoundError(PriorPathAsWritten(lib, f)))
    ensures var f := ResolveModel(lib, req.model).value;
      FitModel(lib, req).Failure? && FitModel(lib, req).error.FileNotFoundError? <==> PriorPath(lib, f) !in lib.priorFiles
  {
    var f := ResolveModel(lib, req.model).value;
    ReprPriorFileMissing(lib, f);
    FitModelOutcomes(lib, req);
  }

  /**
   * Without a prior, a GRB fit as written fails on a missing `repr`-named file;
   * when both files exist it reaches the sampler exactly when the corrected
   * fit does, each with its own file's prior.
   */
  lemma FitModelAsWrittenGrbPrior(lib: Library, req: FitRequest)
    requires req.prior.None? && ResolveModel(lib, req.model).Success? && req.transient.kind == Afterglow
    ensures var f := ResolveModel(lib, req.model).value;
      PriorPathAsWritten(lib, f) !in lib.priorFiles ==>
        FitModelAsWritten(lib, req) == Failure(FileNotFoundError(PriorPathAsWritten(lib, f)))
    ensures var f := ResolveModel(lib, req.model).value;
      PriorPathAsWritten(lib, f) in lib.priorFiles && PriorPath(lib, f) in lib.priorFiles ==>
        (FitModelAsWritten(lib, req).Success? <==> FitModel(lib, req).Success?)
    ensures var f := ResolveModel(lib, req.model).value;
      var flag := req.usePhotonIndexPrior;
      var index := req.transient.photonIndex;
      && (FitModelAsWritten(lib, req).Success? ==>
            FitModelAsWritten(lib, req).value.call.priors
            == AdjustPrior(lib.priorFiles[PriorPathAsWritten(lib, f)], flag, index))
      && (FitModel(lib, req).Success? ==>
            FitModel(lib, req).value.call.priors == AdjustPrior(lib.priorFiles[PriorPath(lib, f)], flag, index))
  {
    var f := ResolveModel(lib, req.model).value;
    var asRead := InitialPriorAsWritten(lib, req.prior, f);
    var fixedRead := InitialPrior(lib, req.prior, f);
    if asRead.Success? {
      assert FitModelAsWritten(lib, req) == FitGrb(FitterArgsOf(req, f, asRead.value, true));
    }
    if fixedRead.Success? {
      assert FitModel(lib, req) == FitGrb(FitterArgsOf(req, f, fixedRead.value, true));
    }
  }

  /**
   * A fit fails only for an unknown model name, a missing prior file, an unknown
   * kind of transient or a repeated sampler keyword.
   */
  lemma FitModelOutcomes(lib: Library, req: FitRequest)
    ensures FitModel(lib, req).Failure? && FitModel(lib, req).error.KeyError? ==>
      req.model.ModelName? && req.model.key !in lib.models
    ensures FitModel(lib, req).Failure? && FitModel(lib, req).error.FileNotFoundError? <==>
      ResolveModel(lib, req.model).Success? && req.prior.None?
      && PriorPath(lib, ResolveModel(lib, req.model).value) !in lib.priorFiles
    ensures FitModel(lib, req).Failure? && FitModel(lib, req).error.ValueError? <==>
      ResolveModel(lib, req.model).Success? && InitialPrior(lib, req.prior, ResolveModel(lib, req.model).value).Success?
      && req.transient.kind == OtherKind
    ensures FitModel(lib, req).Failure? && FitModel(lib, req).error.TypeError? ==>
      req.transient.kind in {Afterglow, Kilonova, PromptTimeSeries}
    ensures FitModel(lib, req).Success? && FitModel(lib, req).value.NoResult? <==>
      ResolveModel(lib, req.model).Success? && InitialPrior(lib, req.prior, ResolveModel(lib, req.model).value).Success?
      && req.transient.kind in {Supernova, Tde}
  {
    var r := FitModel(lib, req);
    var m := ResolveModel(lib, req.model);
    if m.Success? {
      var p := InitialPrior(lib, req.prior, m.value);
      if p.Success? {
        var a := FitterArgsOf(req, m.value, p.value, req.transient.kind != PromptTimeSeries);
        match req.transient.kind
        case Afterglow => assert r == FitGrb(a);
        case Kilonova => assert r == FitKilonova(a);
        case PromptTimeSeries => assert r == FitPrompt(a);
        case Supernova =>
        case Tde =>
        case OtherKind =>
      }
    }
  }

  /**
   * With the defaults, an afterglow fit with a known model whose prior file exists
   * reaches the sampler with that prior; as written, the same call fails on the
   * `repr`-named file when the package's prior files are named after models.
   */
  lemma DefaultAfterglowFit(lib: Library, name: string, t: Transient, key: string)
    requires t.kind == Afterglow && key in lib.models && PriorPath(lib, lib.models[key]) in lib.priorFiles
    ensures var r := FitModel(lib, DefaultRequest(name, t, ModelName(key)));
      && r.Success? && r.value.Sampled?
      && r.value.call.priors == lib.priorFiles[PriorPath(lib, lib.models[key])]
      && r.value.call.runLabel == "flux"
      && r.value.call.outdir == GrbOutdir(".", name, lib.models[key])
      && r.value.call.nlive == 2000 && r.value.call.maxmcmc == 2000 && r.value.call.nwalkers == 200
      && r.value.call.extra == map["truncate" := KwBool(true), "truncate_method" := KwStr("prompt_time_error")]
    ensures PriorsNamedByModel(lib) ==>
      FitModelAsWritten(lib, DefaultRequest(name, t, ModelName(key)))
      == Failure(FileNotFoundError(PriorPathAsWritten(lib, lib.models[key])))
  {
    var req := DefaultRequest(name, t, ModelName(key));
    var a := FitterArgsOf(req, lib.models[key], lib.priorFiles[PriorPath(lib, lib.models[key])], true);
    assert "truncate" !in SamplerKeywords && "truncate_method" !in SamplerKeywords;
    assert forall k :: k in a.kwargs ==> k == "truncate" || k == "truncate_method";
    if PriorsNamedByModel(lib) {
      ReprPriorFileMissing(lib, lib.models[key]);
    }
  }

  /** A package with one model, `tophat`, and its prior file. */
  function TophatLibrary(prior: PriorDict): Library {
    Library(map["tophat" := ModelFunction("tophat", "0x7f00")], "redback", map["redback/Priors/tophat.prior" := prior])
  }

  lemma TophatLibraryNamedByModel(prior: PriorDict)
    ensures PriorsNamedByModel(TophatLibrary(prior))
    ensures PriorPath(TophatLibrary(prior), ModelFunction("tophat", "0x7f00")) in TophatLibrary(prior).priorFiles
  {
    var lib := TophatLibrary(prior);
    assert PriorPath(lib, ModelFunction("tophat", "0x7f00")) == "redback/Priors/tophat.prior";
    assert IsIdentifier("tophat");
    forall path | path in lib.priorFiles
      ensures exists name :: IsIdentifier(name) && path == lib.packageDir + "/Priors/" + name + ".prior"
    {
      assert path == lib.packageDir + "/Priors/" + "tophat" + ".prior";
    }
  }

  /** The default call with `model="tophat"` against that package samples with the shipped prior. */
  lemma TophatDefaultFit(t: Transient, prior: PriorDict)
    requires t.kind == Afterglow
    ensures var req := DefaultRequest("140903A", t, ModelName("tophat"));
      && FitModel(TophatLibrary(prior), req).Success?
      && FitModel(TophatLibrary(prior), req).value.call.priors == prior
  {
    var lib := TophatLibrary(prior);
    var tophat := lib.models["tophat"];
    TophatLibraryNamedByModel(prior);
    assert lib.priorFiles[PriorPath(lib, tophat)] == prior;
    DefaultAfterglowFit(lib, "140903A", t, "tophat");
  }

  /** The path the source builds for `tophat` in that package. */
  lemma TophatReprPath(prior: PriorDict)
    ensures FunctionRepr(ModelFunction("tophat", "0x7f00")) == "<function tophat at 0x7f00>"
    ensures PriorPathAsWritten(TophatLibrary(prior), ModelFunction("tophat", "0x7f00"))
            == "redback/Priors/" + "<function tophat at 0x7f00>" + ".prior"
    ensures PriorPathAsWritten(TophatLibrary(prior), ModelFunction("tophat", "0x7f00")) !in TophatLibrary(prior).priorFiles
  {
    var tophat := ModelFunction("tophat", "0x7f00");
    TophatLibraryNamedByModel(prior);
    ReprPriorFileMissing(TophatLibrary(prior), tophat);
  }

  /**
   * The same call as written looks for `Priors/<function tophat at 0x7f00>.prior`,
   * which the package does not ship, and fails.
   */
  lemma TophatDefaultFitAsWritten(t: Transient, prior: PriorDict)
    requires t.kind == Afterglow
    ensures FitModelAsWritten(TophatLibrary(prior), DefaultRequest("140903A", t, ModelName("tophat")))
            == Failure(FileNotFoundError(PriorPathAsWritten(TophatLibrary(prior), ModelFunction("tophat", "0x7f00"))))
  {
    var lib := TophatLibrary(prior);
    assert lib.models["tophat"] == ModelFunction("tophat", "0x7f00");
    TophatLibraryNamedByModel(prior);
    FitModelAsWrittenMissesPriorFile(lib, DefaultRequest("140903A", t, ModelName("tophat")));
  }
}

=== FILE: wrappers.dfy ===
/** Failure-compatible wrappers shared by every module of the model. */
module Wrappers {

  /** An optional value: Python's `None` or a present value. */
  datatype Option<+T> = None | Some(value: T)

  /** The outcome of an operation that may raise: a value or the error raised. */
  datatype Result<+T, +E> = Success(value: T) | Failure(error: E)
  {
    predicate IsFailure() { Failure? }

    function PropagateFailure<U>(): Result<U, E>
      requires Failure?
    {
      Failure(error)
    }

    function Extract(): T
      requires Success?
    {
      value
    }
  }
}
